=== FILE: README.md ===
# prodscraper in Dafny

prodscraper scrapes product listings (name, price, discounted price) from a
supermarket's web shop and serves them through an HTTP API that caches each
page's result in Redis. A separate tool pulls a product document from a JSON
API and maps its custom attributes onto a flat record for CSV export.

This project models the logic at the centre of both, as pure functions over
immutable data:

- **Endpoints** (`endpoints.dfy`). The `/scrape` and `/scrape_multiple`
  handlers run cache-aside: look the URL up, return a truthy hit as it is,
  otherwise call the scraper once with the configured timeout. They then
  cache a result that has no `error` key, bump the request, success and
  error counters, and turn any exception into a single HTTP 500. A handler
  maps the state before it (cache, counters, log of scraper calls) to the
  state after it and the reply.
- **RedisCache** (`redis_cache.dfy`). `get_cached_result` and
  `set_cached_result` over a key/value store. Every entry carries an expiry
  time, and an expired entry reads as absent.
- **PageScraper** (`page_scraper.dfy`). The per-element field extraction of
  the page scraper: stripped text, the `"N/A"` placeholder, and the price as
  the fallback for a missing discounted price.
- **ProductModel** (`product.dfy`). The `Product` validator, which rejects a
  field that is empty after stripping.
- **AttributeExtractor** (`attribute_extractor.dfy`). `extract` and `parse`
  of the JSON-to-CSV tool, and the `ProductAttributes` defaults. Every
  subscript, `next(...)` and list comprehension fails the way Python does
  (KeyError, IndexError, TypeError, StopIteration). `extract` translates the
  exceptions it catches into its single `ValueError`.
- **Config, CoreConfig and RedisUrl** (`config.dfy`, `core_config.dfy`,
  `redis_url.dfy`). The `redis_url` and `mongodb_database` properties of the
  two settings classes. The partner of the URL builders is a reader,
  `RedisUrl.Parse`. What a settings object means is what the reader
  recovers from its URL.
- **Shared modules.** `Json` models a JSON value with Python's subscript,
  `in` and truthiness. `PyText` models `str.strip`, `lstrip` and integer
  formatting. `Wrappers` holds `Option` and `Result`.

Three behaviours of the code are easy to miss:

- A product element whose name or price holds only whitespace yields `""`,
  and the `"N/A"` placeholder only when the sub-element is missing. The
  scraped records are never validated, so such a record reaches the client
  (`PageScraper.WhitespaceTextGivesEmpty`,
  `PageScraper.BlankNameEscapesValidation`).
- One exception anywhere in `/scrape_multiple` discards the results gathered
  so far and answers 500 for the whole batch (`Endpoints.LoopAbortedStays`,
  `Endpoints.ScrapeMultiple`). No handler reads `RATE_LIMIT_CALLS` or
  `RATE_LIMIT_PERIOD`.
- `/scrape_multiple` caches a fresh result under the result's own `url`
  field, while `/scrape` uses the request URL (`Endpoints.BatchKeyIsResultUrl`).

## Model

| member | source | states |
|---|---|---|
| ProductModel.CheckNotEmpty | jumbo_scraper/src/models/product.py:27-31 | succeeds exactly when the value has a non-whitespace character, returning it unchanged; otherwise ValueError "Field cannot be empty" |
| ProductModel.FailedFields | jumbo_scraper/src/models/product.py:27 | a field is reported exactly when its check failed; the report is empty exactly when no check failed |
| ProductModel.ValidateProduct | jumbo_scraper/src/models/product.py:22-31 | a Product is built exactly when all three fields are non-blank; otherwise the error names exactly the blank fields |
| PyText.Strip | jumbo_scraper/scraper.py:19 | the result is the input with exactly its leading and trailing whitespace removed, and it neither starts nor ends with whitespace |
| PyText.StripEmptyIffAllSpace | jumbo_scraper/src/models/product.py:29 | stripping gives "" exactly when the string is all whitespace |
| PyText.StripUnique | jumbo_scraper/scraper.py:19 | a string has exactly one stripped form |
| PyText.ParseIntOfIntToString | jumbo_scraper/config.py:43-45 | reading back the decimal text of any integer, negative ones included, gives that integer |
| PageScraper.TextOr | jumbo_scraper/scraper.py:18-25 | a present sub-element gives its stripped text, a missing one the fallback; the result is trimmed whenever the fallback is |
| PageScraper.ExtractProductFields | jumbo_scraper/scraper.py:17-31 | name and price are the stripped texts or "N/A"; a missing discounted price falls back to the price; every field is trimmed |
| PageScraper.ScrapeProducts | jumbo_scraper/scraper.py:16-36 | one record per matched element, in page order, each built from its element; the result carries the requested URL |
| PageScraper.WhitespaceTextGivesEmpty | jumbo_scraper/scraper.py:18-25 | a present sub-element that holds only whitespace yields "" rather than "N/A" |
| PageScraper.BlankNameEscapesValidation | jumbo_scraper/src/models/product.py:10-31 | the scraper can emit a record whose name the Product validator would reject |
| PageScraper.ScrapeOutputShape | jumbo_scraper/scraper.py:33-36 | the scraper's result has no "error" key, is truthy, and holds the requested URL under "url" |
| Json.GetItem | json_to_csv_processor/main.py:98-100 | dict lookup succeeds exactly when the key is present; list indexing gives the element and str indexing the one-character string at the index, both accepting negative indexes within bounds; failures are KeyError only on dicts, IndexError only on lists and strings, TypeError otherwise; a dict without the key raises KeyError, an index out of range IndexError, a str key on a list or string and any subscript of a scalar TypeError |
| Json.Contains | jumbo_scraper/src/api/endpoints.py:24 | `in` tests dict keys, list elements and, on a string, substrings; it raises TypeError exactly on values that are neither |
| RedisCache.Read | jumbo_scraper/src/utils/redis_helper.py:16 | GET finds a value exactly when the key is stored and its time to live has not run out |
| RedisCache.GetCachedResult | jumbo_scraper/src/utils/redis_helper.py:15-19 | None for a missing, expired or empty entry; a live non-empty entry gives exactly its decoded value when the text decodes, and JSONDecodeError when it does not |
| RedisCache.SetCachedResult | jumbo_scraper/src/utils/redis_helper.py:21-22 | SETEX stores the encoded value under the key, expiring after the time to live, and leaves every other key alone; a non-positive time to live is refused |
| RedisCache.SetThenGet | jumbo_scraper/src/utils/redis_helper.py:15-22 | with a lossless codec, reading a key back after writing it gives the written value before expiry and None after |
| RedisCache.SetLeavesOtherKeys | jumbo_scraper/src/utils/redis_helper.py:21-22 | writing one key leaves every other key reading as before |
| Endpoints.RedisKey | jumbo_scraper/src/api/endpoints.py:49 | a string key is used as is and an integer becomes its decimal text; strings and integers are accepted as keys and anything else raises DataError |
| Endpoints.IntKeyReadsBack | jumbo_scraper/src/api/endpoints.py:49 | the key of an integer reads back as that integer, so distinct integers never share a cache key |
| Endpoints.CacheKey | jumbo_scraper/src/api/endpoints.py:26-49 | /scrape caches under the request URL; /scrape_multiple caches under result["url"], raising KeyError when the result has none |
| Endpoints.ServeUrl | jumbo_scraper/src/api/endpoints.py:16-30 | per URL: one more request counted; at most one scraper call, with the URL and the configured timeout; a served scrape counts exactly one success or one error, and an exception none yet |
| Endpoints.HitSkipsScraper | jumbo_scraper/src/api/endpoints.py:18-20 | a cache hit returns the cached value with only the request counted: no scraper call and no cache write |
| Endpoints.MissScrapesOnce | jumbo_scraper/src/api/endpoints.py:22 | a miss calls the scraper exactly once, and a served value is the scraper's result |
| Endpoints.RaisedKeepsCache | jumbo_scraper/src/api/endpoints.py:14-33 | an exception leaves the cache as it was |
| Endpoints.ServedSource | jumbo_scraper/src/api/endpoints.py:18-30 | a served value is the cached one on a hit and the scraper's result otherwise |
| Endpoints.ErrorResultNotCached | jumbo_scraper/src/api/endpoints.py:24-30 | a result with an "error" key is returned and counted as an error, and nothing is cached |
| Endpoints.SuccessCached | jumbo_scraper/src/api/endpoints.py:24-27 | a result without "error" is returned and counted as a success, and a read of its key finds it until the time to live has run out, counted from the write that follows the scrape |
| Endpoints.BatchKeyIsResultUrl | jumbo_scraper/src/api/endpoints.py:26-49 | a fresh result is stored under the request URL by /scrape and under result["url"] by /scrape_multiple, expiring the time to live after the write |
| Endpoints.Scrape | jumbo_scraper/src/api/endpoints.py:13-33 | /scrape counts one request; it answers Ok exactly when the URL was served, with the served value and state; any exception becomes a 500 and exactly one more error |
| Endpoints.ScrapeHit | jumbo_scraper/src/api/endpoints.py:18-20 | /scrape on a hit answers with the cached value and changes nothing but the request counter |
| Endpoints.ScrapeMiss | jumbo_scraper/src/api/endpoints.py:22-30 | on a miss whose scrape returns a dict, /scrape answers that result after one scraper call; it is cached under the request URL exactly when it has no "error" key, expiring the time to live after the write that follows the scrape |
| Endpoints.Configure | jumbo_scraper/src/core/config.py:16-23 | the handlers' time to live and scrape timeout are REDIS_CACHE_EXPIRATION and SCRAPE_TIMEOUT |
| Endpoints.DefaultSettingsCacheFiveMinutes | jumbo_scraper/src/core/config.py:16-23 | under the defaults a fresh /scrape result is fetched with a 30000 ms timeout and readable from the cache for exactly 300 seconds after its write |
| Endpoints.ExpiryCountsFromWrite | jumbo_scraper/src/api/endpoints.py:22-27 | when the scrape takes time, the entry is still readable REDIS_CACHE_EXPIRATION seconds after the lookup, because SETEX runs after the awaited scrape |
| Endpoints.ScrapeFailure | jumbo_scraper/src/api/endpoints.py:31-33 | a scraper exception on a miss gives 500 "Error during scraping: " plus its message, one error counted, the cache unchanged, the call logged |
| Endpoints.Loop | jumbo_scraper/src/api/endpoints.py:39-51 | a loop that runs to the end yields one item per URL |
| Endpoints.RunCounters | jumbo_scraper/src/api/endpoints.py:38-51 | across a batch: one request per URL reached, at most one scraper call per URL, the earlier call log kept as a prefix, and for a finished batch one success or error per scraper call |
| Endpoints.ScrapeMultiple | jumbo_scraper/src/api/endpoints.py:35-56 | /scrape_multiple answers exactly when no URL raised, with the loop's items in order (one per URL) and the loop's final state; otherwise a 500 with one more error |
| Endpoints.LoopStep | jumbo_scraper/src/api/endpoints.py:39-51 | one more URL runs the handler once more in the state the earlier URLs left, unless the loop already raised |
| Endpoints.LoopLastStep | jumbo_scraper/src/api/endpoints.py:39-51 | the last URL of a finished loop is handled in the state the other URLs left, and its value is the last item |
| Endpoints.LoopPrefix | jumbo_scraper/src/api/endpoints.py:39-51 | every prefix of a finished loop finishes, with the matching prefix of the items |
| Endpoints.LoopInOrder | jumbo_scraper/src/api/endpoints.py:39-51 | URL i is handled in the state that URLs 0..i-1 left, and what it yields is item i |
| Endpoints.LoopAbortedStays | jumbo_scraper/src/api/endpoints.py:37-56 | once an exception is raised, the remaining URLs are never handled |
| Endpoints.BatchInOrder | jumbo_scraper/src/api/endpoints.py:39-51 | /scrape_multiple handles URL i after URLs 0..i-1, and item i is what that step served |
| Endpoints.BatchElementSource | jumbo_scraper/src/api/endpoints.py:41-46 | item i is the cached value when URL i was a hit at its turn, and the scraper's result for URL i otherwise |
| Endpoints.AllHitsPrefix | jumbo_scraper/src/api/endpoints.py:41-43 | all-hits holds of every prefix and means each URL is a hit |
| Endpoints.AllHitsMeaning | jumbo_scraper/src/api/endpoints.py:41-43 | the batch is all hits exactly when URL i is a hit at its own time, for every i |
| Endpoints.HitsNeverScrape | jumbo_scraper/src/api/endpoints.py:40-43 | a batch of cache hits finishes with no scraper call, no cache write, and only the requests counted |
| Endpoints.HitsServedFromCache | jumbo_scraper/src/api/endpoints.py:40-43 | in a batch of cache hits, item i is the value cached for URL i |
| Endpoints.RepeatedUrlScrapedOnce | jumbo_scraper/src/api/endpoints.py:41-49 | the two-element batch [u, u], the second within the time to live of the first's write: the batch finishes with the result twice and one scraper call |
| Endpoints.ServeKeepsEntry | jumbo_scraper/src/api/endpoints.py:41-49 | a served URL that is a hit, or whose answer is never cached under a key, leaves that key's entry unchanged |
| Endpoints.EntryKeptUntil | jumbo_scraper/src/api/endpoints.py:39-49 | the entry one step of a batch wrote survives every later step that is a hit, the same URL while the entry lives, or never cached under that key |
| Endpoints.RepeatedUrlServedFromCache | jumbo_scraper/src/api/endpoints.py:39-49 | in any finished batch, a URL whose occurrence i missed and cached its result recurs at any j > i within the time to live as a hit: element j is that result and step j makes no scraper call, whatever other URLs lie between, provided none of them replaces the entry |
| Endpoints.PartiallyCachedBatch | jumbo_scraper/src/api/endpoints.py:38-53 | a cached URL then an uncached one give the cached value and the fresh result in request order, with one scraper call, two requests and one success |
| Endpoints.RepeatedPageScrapedOnce | jumbo_scraper/src/api/endpoints.py:41-49 | results shaped like the page scraper's meet the result conditions of RepeatedUrlServedFromCache, so a later occurrence of such a URL anywhere in the batch is served from the cache without a scraper call |
| Endpoints.ScrapeMultipleLoop | jumbo_scraper/src/api/endpoints.py:35-56 | the imperative loop that leaves at the first exception answers exactly what the fold-based definition does |
| RedisUrl.Credentials | jumbo_scraper/config.py:42 | credentials are written exactly when username and password are both non-empty |
| RedisUrl.ParseFormat | jumbo_scraper/config.py:42-45 | reading the built URL recovers exactly the credentials, host, port and database written into it |
| Config.EffectiveHost | jumbo_scraper/config.py:38-39 | the parsed hostname when present and non-empty, otherwise REDIS_HOST |
| Config.EffectivePort | jumbo_scraper/config.py:38-40 | the parsed port when present and non-zero, otherwise REDIS_PORT |
| Config.RedisUrlOf | jumbo_scraper/config.py:36-45 | the URL starts with "redis://" and ends with "/" and the database number |
| Config.RedisUrlMeaning | jumbo_scraper/config.py:36-45 | the URL designates credentials exactly when both are non-empty, the effective host and port, and REDIS_DB |
| Config.MongoDatabase | jumbo_scraper/config.py:47-50 | the path without its leading slashes, or "default_db" when nothing else remains |
| Config.DefaultRedisUrl | jumbo_scraper/config.py:9-13 | with default settings the URL is "redis://localhost:6379/0" |
| Config.DefaultMongoDatabase | jumbo_scraper/config.py:19 | the default MongoDB URL names the database "default_db" |
| CoreConfig.RedisUrlOf | jumbo_scraper/src/core/config.py:31-40 | the API's Redis URL always selects database 0 |
| CoreConfig.SameAsConfigWithDbZero | jumbo_scraper/src/core/config.py:31-40 | the API's builder agrees with the other settings class's builder with REDIS_DB set to 0 |
| CoreConfig.RedisUrlMeaning | jumbo_scraper/src/core/config.py:31-40 | the API's URL designates credentials exactly when both are non-empty, the effective host and port, and database 0 |
| AttributeExtractor.DefaultAttributes | json_to_csv_processor/main.py:37-50 | no allergens, an empty sku, every flag false, every quantity Decimal('0') |
| AttributeExtractor.LoadsValue | json_to_csv_processor/main.py:100 | json.loads accepts only text: text that decodes gives its value, text that does not gives JSONDecodeError, and a non-string gives TypeError |
| AttributeExtractor.FirstNamedIn | json_to_csv_processor/main.py:99 | StopIteration exactly when every entry has a different name; a dict without "name" reached before any match raises KeyError; the only other failures are KeyError and TypeError |
| AttributeExtractor.FirstNamedInFinds | json_to_csv_processor/main.py:99 | the search returns e exactly when e is the first entry named so and every entry before it has another name |
| AttributeExtractor.FirstNamed | json_to_csv_processor/main.py:99 | a list is searched entry by entry; any other value yields no entry, with StopIteration exactly for "" and the empty dict and TypeError otherwise |
| AttributeExtractor.AttributesRaw | json_to_csv_processor/main.py:97-99 | reaches allVariants[0].attributesRaw exactly when that path exists; a missing allVariants, an allVariants that is a dict, or a first variant without attributesRaw, gives KeyError |
| AttributeExtractor.EntryValue | json_to_csv_processor/main.py:100 | succeeds exactly when the entry's value["es-CR"] is text that decodes, and gives the decoded value; a missing value or es-CR gives KeyError, undecodable text JSONDecodeError |
| AttributeExtractor.Extract | json_to_csv_processor/main.py:81-103 | no caught exception escapes; undecodable data and a missing allVariants become "Custom attributes not found or invalid in JSON data"; MissingAttributesRaw, NamelessEntryNotFound, DictVariantsNotFound, NoMatchingEntry and EntryFailureNotFound give the other missing-key cases |
| AttributeExtractor.NamelessEntryNotFound | json_to_csv_processor/main.py:99-103 | an entry without "name" ahead of the first custom_attributes entry is reported as the not-found ValueError |
| AttributeExtractor.DictVariantsNotFound | json_to_csv_processor/main.py:98-103 | an allVariants that is a dict is reported as the not-found ValueError |
| AttributeExtractor.MissingAttributesRaw | json_to_csv_processor/main.py:98-103 | a first variant without attributesRaw is reported as the not-found ValueError |
| AttributeExtractor.EntryFailureNotFound | json_to_csv_processor/main.py:99-103 | when the matching entry's value, its es-CR or the decoding of that text fails with a caught exception, extract reports the not-found ValueError |
| AttributeExtractor.ExtractFinds | json_to_csv_processor/main.py:96-100 | extract returns v exactly when v is the decoded value of the first custom_attributes entry of the first variant |
| AttributeExtractor.OnlyFirstVariant | json_to_csv_processor/main.py:99 | variants after the first never change what extract returns |
| AttributeExtractor.EmptyVariantsEscape | json_to_csv_processor/main.py:99-101 | an empty allVariants list raises IndexError, which extract does not catch |
| AttributeExtractor.EmptyRawNotFound | json_to_csv_processor/main.py:99-103 | an attributesRaw that is "" or an empty dict ends the search with StopIteration, reported as the not-found ValueError |
| AttributeExtractor.NonListRawEscapes | json_to_csv_processor/main.py:99-103 | any other attributesRaw that is not a list raises TypeError, which extract does not catch |
| AttributeExtractor.NoMatchingEntry | json_to_csv_processor/main.py:99-103 | when no entry is named custom_attributes, the StopIteration is reported as the not-found ValueError |
| AttributeExtractor.Field | json_to_csv_processor/main.py:123 | c[key]["value"] succeeds exactly when both lookups do; a missing key gives KeyError |
| AttributeExtractor.NamesOf | json_to_csv_processor/main.py:122 | succeeds exactly when every allergen has a name, giving the names in order |
| AttributeExtractor.AllergenNames | json_to_csv_processor/main.py:122 | the comprehension over any value: a list gives its names; an empty str or dict gives []; anything else fails |
| AttributeExtractor.Parse | json_to_csv_processor/main.py:105-139 | a record is built exactly when every field is present, every allergen is named and every quantity converts; fields are copied verbatim and quantities converted as written; a missing "allergens" gives KeyError |
| AttributeExtractor.MissingKeyFails | json_to_csv_processor/main.py:120-136 | a dict missing any required key never yields a record |

## Left out

- Browser rendering and element selection: Playwright and BeautifulSoup are libraries. The page scraper starts from the matched elements, each reduced to the optional texts of its three sub-elements.
- The scraper the API calls: its module (`src/services/scraper.py`) is not part of this model. The handlers take it as a function from URL and timeout to a result or an exception.
- Network, Redis connections, CSV writing, MongoDB and the `main` drivers: these are I/O. The Redis client construction and its connection failures are left out with them.
- `urlparse`: its hostname, port and path are inputs. A `.port` that raises ValueError on a malformed port is not modelled.
- `json.loads`, `json.dumps`, `Decimal(...)` and `str(...)`: library calls, given as functions. The cache round trip is stated under the assumption `Lossless` that decoding an encoding gives the value back.
- Floating-point JSON numbers: the model's numbers are integers.
- `RATE_LIMIT_CALLS` and `RATE_LIMIT_PERIOD`: they are declared in `src/core/config.py` but no handler reads them.
- FastAPI routing, request and response-model validation, API-key security and the pydantic request models: framework code.
- Prometheus: the counters are modelled; histograms and metric export are not.
- Logging: the `logger.error` calls in `extract` and `parse` (and those of the fetch, CSV and `main` code) write to the log only and do not change a result, so they are not modelled.
- `lru_cache` on `extract` does not change its results, so it is not modelled.
- Time: the clock is an input. Each URL's lookup has its own reading, and a fresh result is written that reading plus the scrape's duration later. The duration is an input function of the URL and the timeout, so two scrapes of one URL are taken to last equally long.
- Concurrency: both handlers are `async` and yield at each `await`. The model runs each request to completion before the next starts. Two concurrent requests for one uncached URL can each miss and each call the scraper, and their counter updates can interleave; the model cannot show this.
- Settings fields the modelled properties do not read (pool sizes, socket timeouts, JWT) are not modelled.
- AttributeExtractor.MissingKeyFails: states failure, not KeyError, because a field read earlier can raise TypeError, or its Decimal conversion can fail, before the missing key is reached.
- Exception messages: every PyError message the model writes follows CPython's and redis-py's wording, with the type name where they print one. These messages reach the 500 `detail` of both handlers. Two kinds of text are approximate. The model's JSONDecodeError message is always "Expecting value". CPython picks the message from the text ("Extra data", "Expecting property name enclosed in double quotes", "Unterminated string starting at", "Expecting ',' delimiter" and others) and adds a position suffix such as `: line 1 column 1 (char 0)`. The "string indices must be integers" TypeError gains a `, not 'str'` suffix from Python 3.11 on.
- RedisUrl.Parse: it reads the builders' own format and is not redis-py's URL parser. redis-py (through `urlparse`) does six things Parse does not. It splits the user information at the last `@` and percent-decodes the username and password. It ends the authority at `?` or `#`. It splits host from port at the first `:` after the user information, so a host such as `localhost:6379` makes the port text `6379:6379` and `.port` raise ValueError. It reads a host containing `[` as a bracketed IPv6 address. It lowercases the hostname. It rejects ports outside 0..65535 and replaces port 0 (and an empty host) with its defaults 6379 and localhost.
- Config.RedisUrlMeaning: states what RedisUrl.Parse reads back. The Redis client would connect with other values, or refuse the URL, when the credentials or host contain `%`, `?` or `#`, when the host contains `:` or `[` or upper-case letters, or when the port is 0 or lies outside 0..65535.
- CoreConfig.RedisUrlMeaning: the same limits as Config.RedisUrlMeaning, including the host `:`/`[`, lowercasing and port 0 cases.
- RedisUrl.ParseFormat: the round trip is through RedisUrl.Parse, with the same limits as Config.RedisUrlMeaning; `Separable` admits hosts with `:`, `[` or upper-case letters and port 0, which the Redis client reads differently.
- AttributeExtractor.Parse: `Decimal(...)` is an input function. Decimal values are modelled in full, including NaN, the infinities and negative zero. The exceptions the conversion raises for text it cannot read pass through as returned.

=== FILE: attribute_extractor.dfy ===
/**
 * `ProductAttributes` and `ProductAttributeExtractor` of json_to_csv_processor/main.py:
 * find the custom attributes of a product document and map them onto a record.
 * `json.loads`, `Decimal(...)` and `str(...)` are library calls and enter as
 * functions; everything between them is modelled with Python's own failure
 * behaviour, so that each exception is the one the source would raise.
 */
module AttributeExtractor {
  import opened Wrappers
  import opened PyText
  import opened Json

  /**
   * A `decimal.Decimal`: a finite `(-1)^negative × coefficient × 10^exponent`
   * (so `-0` is its own value), a signed infinity, or a quiet or signalling NaN
   * with its sign and diagnostic payload.
   */
  datatype Decimal =
    | Finite(negative: bool, coefficient: nat, exponent: int)
    | Infinity(negative: bool)
    | NaN(negative: bool, signaling: bool, payload: nat)

  /** `Decimal('0')`: positive zero with exponent 0. */
  predicate IsPlainZero(d: Decimal) {
    d.Finite? && !d.negative && d.coefficient == 0 && d.exponent == 0
  }

  /** The record the attributes are mapped onto. Field values are kept exactly as read. */
  datatype ProductAttributes = ProductAttributes(
    allergens: seq<Json>,
    sku: Json,
    vegan: Json,
    kosher: Json,
    organic: Json,
    vegetarian: Json,
    glutenFree: Json,
    lactoseFree: Json,
    packageQuantity: Decimal,
    unitSize: Decimal,
    netWeight: Decimal)

  /** The dataclass defaults: nothing known, every flag false, every quantity zero. */
  function DefaultAttributes(): (a: ProductAttributes)
    ensures a.allergens == [] && a.sku == JStr("")
    ensures forall flag :: flag in [a.vegan, a.kosher, a.organic, a.vegetarian, a.glutenFree, a.lactoseFree] ==> flag == JBool(false)
    ensures IsPlainZero(a.packageQuantity) && IsPlainZero(a.unitSize) && IsPlainZero(a.netWeight)
  {
    var zero := Finite(false, 0, 0);
    var no := JBool(false);
    ProductAttributes([], JStr(""), no, no, no, no, no, no, zero, zero, zero)
  }

  /** `json.loads`: the decoder is given; it maps text to a value or finds it undecodable. */
  type Decoder = string -> Option<Json>

  /** `json.loads(v)` for a value read from a document: only a string can be decoded. */
  function LoadsValue(v: Json, decode: Decoder): (r: Result<Json, PyError>)
    ensures v.JStr? && decode(v.s).Some? ==> r == Success(decode(v.s).value)
    ensures v.JStr? && decode(v.s).None? ==> r.Failure? && r.error.kind == JSONDecodeError
    ensures !v.JStr? ==> r.Failure? && r.error.kind == TypeError
  {
    match v
    case JStr(text) =>
      (match decode(text)
       case Some(x) => Success(x)
       case None => Failure(PyError(JSONDecodeError, "Expecting value")))
    case _ => Failure(PyError(TypeError, "the JSON object must be str, bytes or bytearray, not " + TypeName(v)))
  }

  /** An entry whose `name` is the one searched for. */
  predicate NameIs(x: Json, name: string) {
    HasKey(x, "name") && x.fields["name"] == JStr(name)
  }

  /** An entry that has a `name`, and it is a different one. */
  predicate NamedOther(x: Json, name: string) {
    HasKey(x, "name") && x.fields["name"] != JStr(name)
  }

  /** Entry `k` is the first one named `name`, and the search reached it without an exception. */
  predicate IsFirstNamed(xs: seq<Json>, name: string, k: int) {
    0 <= k < |xs| && NameIs(xs[k], name) && forall j :: 0 <= j < k ==> NamedOther(xs[j], name)
  }

  /** Entry `k` is a dict without `name`, and every entry before it has a different `name`. */
  predicate IsFirstNameless(xs: seq<Json>, name: string, k: int) {
    0 <= k < |xs| && xs[k].JObj? && "name" !in xs[k].fields && forall j :: 0 <= j < k ==> NamedOther(xs[j], name)
  }

  /** `next(x for x in xs if x['name'] == name)` over a list. */
  function FirstNamedIn(xs: seq<Json>, name: string): (r: Result<Json, PyError>)
    ensures r.Failure? ==> r.error.kind in {KeyError, TypeError, StopIteration}
    ensures r == Failure(PyError(StopIteration, "")) <==> forall j :: 0 <= j < |xs| ==> NamedOther(xs[j], name)
    ensures forall k :: IsFirstNameless(xs, name, k) ==> r.Failure? && r.error.kind == KeyError
  {
    if xs == [] then Failure(PyError(StopIteration, ""))
    else
      match GetItem(xs[0], KStr("name"))
      case Failure(e) => Failure(e)
      case Success(n) =>
        if n == JStr(name) then Success(xs[0])
        else
          assert forall k :: IsFirstNameless(xs, name, k) ==> IsFirstNameless(xs[1..], name, k - 1);
          FirstNamedIn(xs[1..], name)
  }

  /** The search succeeds exactly at the first entry named `name`. */
  lemma {:induction false} FirstNamedInFinds(xs: seq<Json>, name: string, e: Json)
    ensures FirstNamedIn(xs, name) == Success(e) <==> exists k :: IsFirstNamed(xs, name, k) && xs[k] == e
  {
    if xs != [] {
      FirstNamedInFinds(xs[1..], name, e);
      if FirstNamedIn(xs, name) == Success(e) {
        if !NameIs(xs[0], name) {
          var k :| IsFirstNamed(xs[1..], name, k) && xs[1..][k] == e;
          assert IsFirstNamed(xs, name, k + 1);
        } else {
          assert IsFirstNamed(xs, name, 0);
        }
      }
      if exists k :: IsFirstNamed(xs, name, k) && xs[k] == e {
        var k :| IsFirstNamed(xs, name, k) && xs[k] == e;
        if k > 0 {
          assert NamedOther(xs[0], name);
          assert IsFirstNamed(xs[1..], name, k - 1);
        }
      }
    }
  }

  /** `next(...)` over any value: lists by element; strings and dicts yield strings, which have no `name`. */
  function FirstNamed(iterable: Json, name: string): (r: Result<Json, PyError>)
    ensures iterable.JArr? ==> r == FirstNamedIn(iterable.items, name)
    ensures !iterable.JArr? && r.Failure? ==> r.error.kind in {TypeError, StopIteration}
    ensures !iterable.JArr? ==> r.Failure?
    ensures !iterable.JArr? ==>
      r.Failure? && (r.error.kind == StopIteration <==> iterable == JStr("") || iterable == JObj(map[]))
  {
    match iterable
    case JArr(xs) => FirstNamedIn(xs, name)
    case JStr(s) =>
      if s == "" then Failure(PyError(StopIteration, "")) else Failure(PyError(TypeError, "string indices must be integers"))
    case JObj(m) =>
      if m == map[] then Failure(PyError(StopIteration, "")) else Failure(PyError(TypeError, "string indices must be integers"))
    case _ => Failure(PyError(TypeError, "'" + TypeName(iterable) + "' object is not iterable"))
  }

  /** `json.loads(data)` is a dict whose `allVariants` is a non-empty list whose first variant has `attributesRaw`. */
  predicate ReachesRaw(data: string, decode: Decoder) {
    && decode(data).Some?
    && HasKey(decode(data).value, "allVariants")
    && var variants := decode(data).value.fields["allVariants"];
    && variants.JArr? && |variants.items| > 0
    && HasKey(variants.items[0], "attributesRaw")
  }

  function RawOf(data: string, decode: Decoder): Json
    requires ReachesRaw(data, decode)
  {
    decode(data).value.fields["allVariants"].items[0].fields["attributesRaw"]
  }

  /** `json.loads(data)['allVariants'][0]['attributesRaw']`. */
  function AttributesRaw(data: string, decode: Decoder): (r: Result<Json, PyError>)
    ensures r.Success? <==> ReachesRaw(data, decode)
    ensures r.Success? ==> r.value == RawOf(data, decode)
    ensures decode(data).Some? && decode(data).value.JObj? && "allVariants" !in decode(data).value.fields ==>
      r.Failure? && r.error.kind == KeyError
    ensures decode(data).Some? && HasKey(decode(data).value, "allVariants") && decode(data).value.fields["allVariants"].JObj? ==>
      r.Failure? && r.error.kind == KeyError
    ensures decode(data).Some? && HasKey(decode(data).value, "allVariants") ==>
      var variants := decode(data).value.fields["allVariants"];
      variants.JArr? && |variants.items| > 0 && variants.items[0].JObj? && "attributesRaw" !in variants.items[0].fields ==>
      r.Failure? && r.error.kind == KeyError
  {
    var parsed :- LoadsValue(JStr(data), decode);
    var allVariants :- GetItem(parsed, KStr("allVariants"));
    var first :- GetItem(allVariants, KInt(0));
    GetItem(first, KStr("attributesRaw"))
  }

  /** The entry has a `value` dict whose `es-CR` text decodes. */
  predicate HasValue(entry: Json, decode: Decoder) {
    && HasKey(entry, "value")
    && HasKey(entry.fields["value"], "es-CR")
    && entry.fields["value"].fields["es-CR"].JStr?
    && decode(entry.fields["value"].fields["es-CR"].s).Some?
  }

  /** The decoded attributes `v` are those carried by `entry`. */
  predicate CarriesValue(entry: Json, decode: Decoder, v: Json) {
    HasValue(entry, decode) && decode(entry.fields["value"].fields["es-CR"].s) == Some(v)
  }

  /** `json.loads(entry['value']['es-CR'])`. */
  function EntryValue(entry: Json, decode: Decoder): (r: Result<Json, PyError>)
    ensures r.Success? <==> HasValue(entry, decode)
    ensures r.Success? ==> CarriesValue(entry, decode, r.value)
    ensures entry.JObj? && "value" !in entry.fields ==> r.Failure? && r.error.kind == KeyError
    ensures HasKey(entry, "value") && entry.fields["value"].JObj? && "es-CR" !in entry.fields["value"].fields ==>
      r.Failure? && r.error.kind == KeyError
    ensures HasKey(entry, "value") && HasKey(entry.fields["value"], "es-CR") ==>
      var text := entry.fields["value"].fields["es-CR"];
      text.JStr? && decode(text.s).None? ==> r.Failure? && r.error.kind == JSONDecodeError
  {
    var value :- GetItem(entry, KStr("value"));
    var text :- GetItem(value, KStr("es-CR"));
    LoadsValue(text, decode)
  }

  /** The body of the `try` block of `extract`, before exceptions are translated. */
  function Locate(data: string, decode: Decoder): Result<Json, PyError> {
    var raw :- AttributesRaw(data, decode);
    var entry :- FirstNamed(raw, "custom_attributes");
    EntryValue(entry, decode)
  }

  /** The single error `extract` reports for missing or undecodable attributes. */
  const NotFound: PyError := PyError(ValueError, "Custom attributes not found or invalid in JSON data")

  /** Exceptions `extract` catches and reports as `NotFound`. */
  predicate Caught(e: PyError) {
    e.kind in {KeyError, StopIteration, JSONDecodeError}
  }

  /**
   * `extract`: the decoded attributes; a missing key, no matching entry or
   * undecodable text all become `NotFound`, and other exceptions pass through.
   */
  function Extract(data: string, decode: Decoder): (r: Result<Json, PyError>)
    ensures r.Failure? ==> !Caught(r.error)
    ensures decode(data).None? ==> r == Failure(NotFound)
    ensures decode(data).Some? && decode(data).value.JObj? && "allVariants" !in decode(data).value.fields ==> r == Failure(NotFound)
  {
    match Locate(data, decode)
    case Success(v) => Success(v)
    case Failure(e) => if Caught(e) then Failure(NotFound) else Failure(e)
  }

  /** The path `extract` follows: `allVariants[0].attributesRaw`, the first `custom_attributes` entry, `value['es-CR']`. */
  ghost predicate Locates(data: string, decode: Decoder, v: Json) {
    && ReachesRaw(data, decode)
    && RawOf(data, decode).JArr?
    && var raw := RawOf(data, decode).items;
    && exists k :: IsFirstNamed(raw, "custom_attributes", k) && CarriesValue(raw[k], decode, v)
  }

  /** `extract` returns `v` exactly when `v` is what the documented path leads to. */
  lemma ExtractFinds(data: string, decode: Decoder, v: Json)
    ensures Extract(data, decode) == Success(v) <==> Locates(data, decode, v)
  {
    if ReachesRaw(data, decode) && RawOf(data, decode).JArr? {
      var raw := RawOf(data, decode).items;
      var name := "custom_attributes";
      if exists k :: IsFirstNamed(raw, name, k) && CarriesValue(raw[k], decode, v) {
        var k :| IsFirstNamed(raw, name, k) && CarriesValue(raw[k], decode, v);
        FirstNamedInFinds(raw, name, raw[k]);
      }
      if FirstNamedIn(raw, name).Success? {
        FirstNamedInFinds(raw, name, FirstNamedIn(raw, name).value);
      }
    }
  }

  /** Variants after the first never change what `extract` returns. */
  lemma OnlyFirstVariant(data1: string, data2: string, decode: Decoder, m1: map<string, Json>, m2: map<string, Json>, first: Json, rest1: seq<Json>, rest2: seq<Json>)
    requires decode(data1) == Some(JObj(m1)) && decode(data2) == Some(JObj(m2))
    requires "allVariants" in m1 && m1["allVariants"] == JArr([first] + rest1)
    requires "allVariants" in m2 && m2["allVariants"] == JArr([first] + rest2)
    ensures Extract(data1, decode) == Extract(data2, decode)
  {
  }

  /** An empty `allVariants` list raises `IndexError`, which `extract` does not catch. */
  lemma EmptyVariantsEscape(data: string, decode: Decoder, m: map<string, Json>)
    requires decode(data) == Some(JObj(m)) && "allVariants" in m && m["allVariants"] == JArr([])
    ensures Extract(data, decode).Failure? && Extract(data, decode).error.kind == IndexError
  {
  }

  /** Entries that all have a different `name`: no match, reported as `NotFound`. */
  lemma NoMatchingEntry(data: string, decode: Decoder, m: map<string, Json>, first: Json, rest: seq<Json>)
    requires decode(data) == Some(JObj(m)) && "allVariants" in m && m["allVariants"] == JArr([first] + rest)
    requires HasKey(first, "attributesRaw") && first.fields["attributesRaw"].JArr?
    requires forall j :: 0 <= j < |first.fields["attributesRaw"].items| ==> NamedOther(first.fields["attributesRaw"].items[j], "custom_attributes")
    ensures Extract(data, decode) == Failure(NotFound)
  {
  }

  /** A first variant without `attributesRaw`: the KeyError is reported as `NotFound`. */
  lemma MissingAttributesRaw(data: string, decode: Decoder, m: map<string, Json>, first: Json, rest: seq<Json>)
    requires decode(data) == Some(JObj(m)) && "allVariants" in m && m["allVariants"] == JArr([first] + rest)
    requires first.JObj? && "attributesRaw" !in first.fields
    ensures Extract(data, decode) == Failure(NotFound)
  {
  }

  /**
   * The first `custom_attributes` entry found, but its `value`, its `es-CR` or
   * the decoding of that text fails with an exception `extract` catches: `NotFound`.
   */
  lemma EntryFailureNotFound(data: string, decode: Decoder, k: int)
    requires ReachesRaw(data, decode) && RawOf(data, decode).JArr?
    requires IsFirstNamed(RawOf(data, decode).items, "custom_attributes", k)
    requires EntryValue(RawOf(data, decode).items[k], decode).Failure?
    requires Caught(EntryValue(RawOf(data, decode).items[k], decode).error)
    ensures Extract(data, decode) == Failure(NotFound)
  {
    var raw := RawOf(data, decode).items;
    FirstNamedInFinds(raw, "custom_attributes", raw[k]);
  }

  /** An entry without `name` ahead of the first `custom_attributes` entry: the KeyError is reported as `NotFound`. */
  lemma NamelessEntryNotFound(data: string, decode: Decoder, k: int)
    requires ReachesRaw(data, decode) && RawOf(data, decode).JArr?
    requires IsFirstNameless(RawOf(data, decode).items, "custom_attributes", k)
    ensures Extract(data, decode) == Failure(NotFound)
  {
  }

  /** An `allVariants` that is a dict: `all_variants[0]` raises KeyError, reported as `NotFound`. */
  lemma DictVariantsNotFound(data: string, decode: Decoder, m: map<string, Json>, variants: map<string, Json>)
    requires decode(data) == Some(JObj(m)) && "allVariants" in m && m["allVariants"] == JObj(variants)
    ensures Extract(data, decode) == Failure(NotFound)
  {
  }

  /** An empty string or dict as `attributesRaw`: `next(...)` finds nothing, reported as `NotFound`. */
  lemma EmptyRawNotFound(data: string, decode: Decoder)
    requires ReachesRaw(data, decode)
    requires RawOf(data, decode) == JStr("") || RawOf(data, decode) == JObj(map[])
    ensures Extract(data, decode) == Failure(NotFound)
  {
  }

  /** Any other `attributesRaw` that is not a list: the TypeError is not caught and escapes `extract`. */
  lemma NonListRawEscapes(data: string, decode: Decoder)
    requires ReachesRaw(data, decode) && !RawOf(data, decode).JArr?
    requires RawOf(data, decode) != JStr("") && RawOf(data, decode) != JObj(map[])
    ensures Extract(data, decode).Failure? && Extract(data, decode).error.kind == TypeError
  {
  }

  /** `Decimal(...)` and `str(...)`, as the library provides them. */
  datatype Conversions = Conversions(decimal: Json -> Result<Decimal, PyError>, str: Json -> string)

  /** `c[key]['value']`. */
  function Field(c: Json, key: string): (r: Result<Json, PyError>)
    ensures r.Success? <==> HasField(c, key)
    ensures r.Success? ==> r.value == c.fields[key].fields["value"]
    ensures c.JObj? && key !in c.fields ==> r.Failure? && r.error.kind == KeyError
  {
    var entry :- GetItem(c, KStr(key));
    GetItem(entry, KStr("value"))
  }

  /** `c[key]['value']` where it exists. */
  function FieldValue(c: Json, key: string): Json
    requires HasField(c, key)
  {
    c.fields[key].fields["value"]
  }

  /** `c[key]` exists and is a dict with a `value`. */
  predicate HasField(c: Json, key: string) {
    HasKey(c, key) && HasKey(c.fields[key], "value")
  }

  /** `[x['name'] for x in xs]`, failing at the first entry without a `name`. */
  function NamesOf(xs: seq<Json>): (r: Result<seq<Json>, PyError>)
    ensures r.Success? <==> forall i :: 0 <= i < |xs| ==> HasKey(xs[i], "name")
    ensures r.Success? ==> |r.value| == |xs| && forall i :: 0 <= i < |xs| ==> r.value[i] == xs[i].fields["name"]
  {
    if xs == [] then Success([])
    else
      match GetItem(xs[0], KStr("name"))
      case Failure(e) => Failure(e)
      case Success(n) =>
        match NamesOf(xs[1..])
        case Failure(e) =>
          assert !HasKey(xs[1..][0], "name") || exists i :: 0 <= i < |xs| - 1 && !HasKey(xs[1..][i], "name");
          Failure(e)
        case Success(rest) => Success([n] + rest)
  }

  /** The allergen list is iterable and every allergen has a `name`. */
  predicate AllergensNamed(v: Json) {
    || (v.JArr? && forall i :: 0 <= i < |v.items| ==> HasKey(v.items[i], "name"))
    || v == JStr("")
    || v == JObj(map[])
  }

  /** `[allergen['name'] for allergen in v]` for any value `v`. */
  function AllergenNames(v: Json): (r: Result<seq<Json>, PyError>)
    ensures r.Success? <==> AllergensNamed(v)
    ensures r.Success? && v.JArr? ==> r.value == NamesOf(v.items).value
    ensures r.Success? && !v.JArr? ==> r.value == []
  {
    match v
    case JArr(xs) => NamesOf(xs)
    case JStr(s) => if s == "" then Success([]) else Failure(PyError(TypeError, "string indices must be integers"))
    case JObj(m) => if m == map[] then Success([]) else Failure(PyError(TypeError, "string indices must be integers"))
    case _ => Failure(PyError(TypeError, "'" + TypeName(v) + "' object is not iterable"))
  }

  /** The keys `parse` reads, in the order it reads them. */
  const RequiredKeys: seq<string> := ["allergens", "sku", "vegan", "kosher", "organic", "vegetarian",
                                      "gluten_free", "lactose_free", "package_quantity", "unit_size", "net_weight"]

  predicate AllFieldsPresent(c: Json) {
    && HasField(c, "allergens") && HasField(c, "sku") && HasField(c, "vegan") && HasField(c, "kosher")
    && HasField(c, "organic") && HasField(c, "vegetarian") && HasField(c, "gluten_free")
    && HasField(c, "lactose_free") && HasField(c, "package_quantity") && HasField(c, "unit_size")
    && HasField(c, "net_weight")
  }

  /** Everything `parse` needs: each field present, allergens named, each quantity convertible. */
  predicate Parsable(c: Json, conv: Conversions) {
    && AllFieldsPresent(c)
    && AllergensNamed(FieldValue(c, "allergens"))
    && conv.decimal(JStr(conv.str(FieldValue(c, "package_quantity")))).Success?
    && conv.decimal(FieldValue(c, "unit_size")).Success?
    && conv.decimal(FieldValue(c, "net_weight")).Success?
  }

  /**
   * `parse`: builds the record field by field in declaration order; the first
   * exception propagates and no partial record is returned.
   */
  function Parse(c: Json, conv: Conversions): (r: Result<ProductAttributes, PyError>)
    ensures r.Success? <==> Parsable(c, conv)
    ensures r.Success? ==>
      && r.value.sku == FieldValue(c, "sku")
      && r.value.vegan == FieldValue(c, "vegan") && r.value.kosher == FieldValue(c, "kosher")
      && r.value.organic == FieldValue(c, "organic") && r.value.vegetarian == FieldValue(c, "vegetarian")
      && r.value.glutenFree == FieldValue(c, "gluten_free") && r.value.lactoseFree == FieldValue(c, "lactose_free")
      && r.value.packageQuantity == conv.decimal(JStr(conv.str(FieldValue(c, "package_quantity")))).value
      && r.value.unitSize == conv.decimal(FieldValue(c, "unit_size")).value
      && r.value.netWeight == conv.decimal(FieldValue(c, "net_weight")).value
    ensures r.Success? && FieldValue(c, "allergens").JArr? ==>
      var entries := FieldValue(c, "allergens").items;
      |r.value.allergens| == |entries| && forall i :: 0 <= i < |entries| ==> r.value.allergens[i] == entries[i].fields["name"]
    ensures r.Success? && !FieldValue(c, "allergens").JArr? ==> r.value.allergens == []
    ensures c.JObj? && "allergens" !in c.fields ==> r.Failure? && r.error.kind == KeyError
  {
    var allergenList :- Field(c, "allergens");
    var allergens :- AllergenNames(allergenList);
    var sku :- Field(c, "sku");
    var vegan :- Field(c, "vegan");
    var kosher :- Field(c, "kosher");
    var organic :- Field(c, "organic");
    var vegetarian :- Field(c, "vegetarian");
    var glutenFree :- Field(c, "gluten_free");
    var lactoseFree :- Field(c, "lactose_free");
    var quantity :- Field(c, "package_quantity");
    var packageQuantity :- conv.decimal(JStr(conv.str(quantity)));
    var size :- Field(c, "unit_size");
    var unitSize :- conv.decimal(size);
    var weight :- Field(c, "net_weight");
    var netWeight :- conv.decimal(weight);
    Success(ProductAttributes(allergens, sku, vegan, kosher, organic, vegetarian, glutenFree, lactoseFree,
                              packageQuantity, unitSize, netWeight))
  }

  /** A dict missing any of the required keys never yields a record. */
  lemma MissingKeyFails(c: Json, conv: Conversions, key: string)
    requires c.JObj? && key in RequiredKeys && key !in c.fields
    ensures Parse(c, conv).Failure?
  {
  }
}

=== FILE: config.dfy ===
/**
 * The derived settings of jumbo_scraper/config.py: the Redis connection string
 * (with a configurable database) and the MongoDB database name. `urlparse` is a
 * library call, so its answers are inputs here.
 */
module Config {
  import opened Wrappers
  import opened PyText
  import RedisUrl

  /** The environment-backed fields the two properties read. */
  datatype Settings = Settings(
    redisHost: string,
    redisPort: int,
    redisUsername: string,
    redisPassword: string,
    redisDb: int,
    mongodbUrl: string)

  /** The declared field defaults. */
  const Defaults: Settings := Settings("localhost", 6379, "", "", 0, "mongodb://localhost:27017/default_db")

  /** The parts of a `urlparse` result the properties use. */
  datatype ParsedUrl = ParsedUrl(hostname: Option<string>, port: Option<int>, path: string)

  /** `parsed.hostname or raw`: an absent or empty hostname falls back. */
  function EffectiveHost(raw: string, parsed: ParsedUrl): (h: string)
    ensures parsed.hostname.Some? && parsed.hostname.value != "" ==> h == parsed.hostname.value
    ensures parsed.hostname.None? || parsed.hostname.value == "" ==> h == raw
  {
    if parsed.hostname.Some? && parsed.hostname.value != "" then parsed.hostname.value else raw
  }

  /** `parsed.port or raw`: an absent port or port 0 falls back. */
  function EffectivePort(raw: int, parsed: ParsedUrl): (p: int)
    ensures parsed.port.Some? && parsed.port.value != 0 ==> p == parsed.port.value
    ensures parsed.port.None? || parsed.port.value == 0 ==> p == raw
  {
    if parsed.port.Some? && parsed.port.value != 0 then parsed.port.value else raw
  }

  /** `redis_url`, given `urlparse(REDIS_HOST)`. It always ends in `/` and the database number. */
  function RedisUrlOf(s: Settings, parsedHost: ParsedUrl): (url: string)
    ensures |url| > 9 && url[..8] == "redis://"
    ensures var tail := "/" + IntToString(s.redisDb); |url| >= |tail| && url[|url| - |tail|..] == tail
  {
    var credentials := RedisUrl.Credentials(s.redisUsername, s.redisPassword);
    var host := EffectiveHost(s.redisHost, parsedHost);
    var port := EffectivePort(s.redisPort, parsedHost);
    RedisUrl.FormatAffixes(credentials, host, port, IntToString(s.redisDb));
    RedisUrl.Format(credentials, host, port, IntToString(s.redisDb))
  }

  /**
   * What the connection string designates: credentials exactly when both are
   * non-empty, the parsed host and port unless missing or falsy, and `REDIS_DB`.
   */
  lemma RedisUrlMeaning(s: Settings, parsedHost: ParsedUrl)
    requires RedisUrl.Separable(RedisUrl.Credentials(s.redisUsername, s.redisPassword), EffectiveHost(s.redisHost, parsedHost))
    ensures RedisUrl.Parse(RedisUrlOf(s, parsedHost)) == Some(RedisUrl.UrlParts(
      if s.redisUsername != "" && s.redisPassword != "" then Some((s.redisUsername, s.redisPassword)) else None,
      if parsedHost.hostname.Some? && parsedHost.hostname.value != "" then parsedHost.hostname.value else s.redisHost,
      if parsedHost.port.Some? && parsedHost.port.value != 0 then parsedHost.port.value else s.redisPort,
      s.redisDb))
  {
    RedisUrl.ParseFormat(
      RedisUrl.Credentials(s.redisUsername, s.redisPassword),
      EffectiveHost(s.redisHost, parsedHost),
      EffectivePort(s.redisPort, parsedHost),
      s.redisDb);
  }

  predicate AllSlashes(s: string) {
    forall k :: 0 <= k < |s| ==> s[k] == '/'
  }

  /** `mongodb_database`, given the path of `urlparse(MONGODB_URL)`. */
  function MongoDatabase(path: string): (name: string)
    ensures AllSlashes(path) ==> name == "default_db"
    ensures !AllSlashes(path) ==>
      && |name| <= |path| && name == path[|path| - |name|..]
      && AllSlashes(path[..|path| - |name|])
      && name != [] && name[0] != '/'
  {
    var rest := LStripChar(path, '/');
    if rest == [] then "default_db" else rest
  }

  /** With every field at its default (and `urlparse` finding no host or port in `"localhost"`). */
  lemma DefaultRedisUrl()
    ensures RedisUrlOf(Defaults, ParsedUrl(None, None, "localhost")) == "redis://localhost:6379/0"
  {
    DefaultPortText();
    assert IntToString(0) == "0";
    assert RedisUrl.Authority(None, "localhost", 6379) == "localhost:6379";
  }

  lemma DefaultPortText()
    ensures IntToString(6379) == "6379"
  {
    assert NatToString(6) == "6";
    assert NatToString(63) == "63";
    assert NatToString(637) == "637";
  }

  /** The default MongoDB URL names the database `default_db`. */
  lemma DefaultMongoDatabase()
    ensures MongoDatabase("/default_db") == "default_db"
  {
    var path := "/default_db";
    assert path[0] == '/' && path[1..] == "default_db";
    assert LStripChar(path, '/') == LStripChar("default_db", '/');
    assert "default_db"[0] != '/';
  }
}

=== FILE: core_config.dfy ===
/**
 * The settings of jumbo_scraper/src/core/config.py: the Redis connection
 * string, which always selects database 0, and the cache and scraping
 * settings the API endpoints read.
 */
module CoreConfig {
  import opened Wrappers
  import opened PyText
  import RedisUrl
  import Config

  datatype Settings = Settings(
    redisHost: string,
    redisPort: int,
    redisUsername: string,
    redisPassword: string,
    cacheExpiration: int,
    scrapeTimeout: int)

  /** `REDIS_CACHE_EXPIRATION` when unset: five minutes, in seconds. */
  const DefaultCacheExpiration: int := 300

  /** `SCRAPE_TIMEOUT` when unset, in milliseconds. */
  const DefaultScrapeTimeout: int := 30000

  /** `redis_url`, given `urlparse(REDIS_HOST)`; the database segment is fixed to `/0`. */
  function RedisUrlOf(s: Settings, parsedHost: Config.ParsedUrl): (url: string)
    ensures |url| >= 2 && url[|url| - 2..] == "/0"
  {
    var credentials := RedisUrl.Credentials(s.redisUsername, s.redisPassword);
    var host := Config.EffectiveHost(s.redisHost, parsedHost);
    var port := Config.EffectivePort(s.redisPort, parsedHost);
    RedisUrl.FormatAffixes(credentials, host, port, "0");
    RedisUrl.Format(credentials, host, port, "0")
  }

  /** The fixed-database builder is the other one with `REDIS_DB` pinned to 0. */
  lemma SameAsConfigWithDbZero(s: Settings, parsedHost: Config.ParsedUrl, mongodbUrl: string)
    ensures RedisUrlOf(s, parsedHost) ==
      Config.RedisUrlOf(Config.Settings(s.redisHost, s.redisPort, s.redisUsername, s.redisPassword, 0, mongodbUrl), parsedHost)
  {
    assert IntToString(0) == "0";
  }

  /**
   * What the connection string designates: credentials exactly when both are
   * non-empty, the parsed host and port unless missing or falsy, and database 0.
   */
  lemma RedisUrlMeaning(s: Settings, parsedHost: Config.ParsedUrl)
    requires RedisUrl.Separable(RedisUrl.Credentials(s.redisUsername, s.redisPassword), Config.EffectiveHost(s.redisHost, parsedHost))
    ensures RedisUrl.Parse(RedisUrlOf(s, parsedHost)) == Some(RedisUrl.UrlParts(
      if s.redisUsername != "" && s.redisPassword != "" then Some((s.redisUsername, s.redisPassword)) else None,
      if parsedHost.hostname.Some? && parsedHost.hostname.value != "" then parsedHost.hostname.value else s.redisHost,
      if parsedHost.port.Some? && parsedHost.port.value != 0 then parsedHost.port.value else s.redisPort,
      0))
  {
    var mongo := "";
    SameAsConfigWithDbZero(s, parsedHost, mongo);
    Config.RedisUrlMeaning(Config.Settings(s.redisHost, s.redisPort, s.redisUsername, s.redisPassword, 0, mongo), parsedHost);
  }
}

=== FILE: endpoints.dfy ===
/**
 * The `/scrape` and `/scrape_multiple` handlers of jumbo_scraper/src/api/endpoints.py:
 * look the URL up in the cache, call the scraper service on a miss, cache a result
 * that has no `error` key, count requests, successes and errors, and turn any
 * exception into one HTTP 500 reply. A handler is a pure function from the
 * state before (cache, counters, the log of scraper calls) to the state after
 * and the reply. The clock, the scraper and the JSON codec are inputs.
 */
module Endpoints {
  import opened Wrappers
  import opened PyText
  import opened Json
  import opened RedisCache
  import PageScraper
  import CoreConfig

  /** The three Prometheus counters the handlers increment. */
  datatype Metrics = Metrics(requests: nat, successes: nat, errors: nat)

  /** One invocation of `scrape_products(url, timeout=...)`. */
  datatype Call = Call(url: string, timeout: int)

  datatype State = State(cache: Store, metrics: Metrics, calls: seq<Call>)

  /** What the scraper service did: returned a result or raised. */
  datatype ScrapeOutcome = Returns(result: Json) | Throws(error: PyError)

  /**
   * The collaborators and settings: the scraper service, the seconds an
   * `await scrape_products(url, timeout=...)` takes, the cache's JSON codec,
   * `REDIS_CACHE_EXPIRATION` (seconds) and `SCRAPE_TIMEOUT`.
   */
  datatype Env = Env(scraper: (string, int) -> ScrapeOutcome, scrapeDuration: (string, int) -> nat,
                     codec: Codec, cacheExpiration: int, scrapeTimeout: int)

  /** The environment the API runs in: expiry and timeout come from its settings. */
  function Configure(s: CoreConfig.Settings, scraper: (string, int) -> ScrapeOutcome,
                     scrapeDuration: (string, int) -> nat, codec: Codec): (env: Env)
    ensures env.cacheExpiration == s.cacheExpiration && env.scrapeTimeout == s.scrapeTimeout
    ensures env.scraper == scraper && env.scrapeDuration == scrapeDuration && env.codec == codec
  {
    Env(scraper, scrapeDuration, codec, s.cacheExpiration, s.scrapeTimeout)
  }

  /**
   * The clock reading at which a fresh result for `url`, looked up at `now`, is
   * written: the `SETEX` runs once the awaited scrape has returned.
   */
  function WrittenAt(now: int, url: string, env: Env): (t: int)
    ensures t >= now
  {
    now + env.scrapeDuration(url, env.scrapeTimeout)
  }

  datatype Response = Ok(body: Json) | HttpError(status: int, detail: string)

  datatype Reply = Reply(state: State, response: Response)

  /** Where a fresh result is cached: the single path uses the request URL, the batch path `result["url"]`. */
  datatype KeyRule = RequestUrl | ResultUrl

  /** One URL handled inside the `try` block: a value to return, or an exception on its way out. */
  datatype Step = Served(state: State, value: Json) | Raised(state: State, error: PyError)

  /** A cache hit: the lookup succeeds and finds a truthy value (`if cached_result:`). */
  predicate IsHit(store: Store, now: int, url: string, codec: Codec) {
    var g := GetCachedResult(store, now, url, codec);
    g.Success? && g.value.Some? && Truthy(g.value.value)
  }

  /** A miss: the lookup succeeds but finds nothing, or a falsy value. */
  predicate IsMiss(store: Store, now: int, url: string, codec: Codec) {
    GetCachedResult(store, now, url, codec).Success? && !IsHit(store, now, url, codec)
  }

  function HitValue(store: Store, now: int, url: string, codec: Codec): Json
    requires IsHit(store, now, url, codec)
  {
    GetCachedResult(store, now, url, codec).value.value
  }

  /** How redis-py turns a key into bytes: text as is, integers in decimal, anything else refused. */
  function RedisKey(v: Json): (r: Result<string, PyError>)
    ensures v.JStr? ==> r == Success(v.s)
    ensures v.JNum? ==> r == Success(IntToString(v.n))
    ensures r.Success? <==> v.JStr? || v.JNum?
    ensures r.Failure? ==> r.error.kind == DataError
  {
    match v
    case JStr(s) => Success(s)
    case JNum(n) => Success(IntToString(n))
    case _ => Failure(PyError(DataError, "Invalid input of type: '" + TypeName(v) + "'. Convert to a bytes, string, int or float first."))
  }

  /** An integer key is its decimal text, which reads back as that integer, so distinct integers get distinct keys. */
  lemma IntKeyReadsBack(n: int, m: int)
    ensures RedisKey(JNum(n)).Success? && ParseInt(RedisKey(JNum(n)).value) == Some(n)
    ensures n != m ==> RedisKey(JNum(n)) != RedisKey(JNum(m))
  {
    ParseIntOfIntToString(n);
    ParseIntOfIntToString(m);
  }

  /** The cache key for a fresh `result` fetched for `url`. */
  function CacheKey(url: string, result: Json, rule: KeyRule): (r: Result<string, PyError>)
    ensures rule == RequestUrl ==> r == Success(url)
    ensures rule == ResultUrl && HasKey(result, "url") && result.fields["url"].JStr? ==> r == Success(result.fields["url"].s)
    ensures rule == ResultUrl && result.JObj? && "url" !in result.fields ==> r.Failure? && r.error.kind == KeyError
  {
    match rule
    case RequestUrl => Success(url)
    case ResultUrl =>
      var u :- GetItem(result, KStr("url"));
      RedisKey(u)
  }

  function CountRequest(st: State): State {
    st.(metrics := st.metrics.(requests := st.metrics.requests + 1))
  }

  function CountSuccess(st: State): State {
    st.(metrics := st.metrics.(successes := st.metrics.successes + 1))
  }

  function CountError(st: State): State {
    st.(metrics := st.metrics.(errors := st.metrics.errors + 1))
  }

  /**
   * One URL, as both handlers process it: count the request, return a cache hit
   * as it is, otherwise scrape once, then count and (without an `error` key) cache.
   * The lookup reads the clock at `now`, the write after the scrape at `WrittenAt`.
   */
  function ServeUrl(st: State, url: string, now: int, env: Env, rule: KeyRule): (r: Step)
    ensures r.state.metrics.requests == st.metrics.requests + 1
    ensures r.state.metrics.errors == st.metrics.errors + (if r.Served? && |r.state.calls| > |st.calls| && r.state.metrics.successes == st.metrics.successes then 1 else 0)
    ensures r.state.metrics.successes == st.metrics.successes || r.state.metrics.successes == st.metrics.successes + 1
    ensures r.state.calls == st.calls || r.state.calls == st.calls + [Call(url, env.scrapeTimeout)]
    ensures r.Served? && r.state.calls != st.calls ==>
      r.state.metrics.successes + r.state.metrics.errors == st.metrics.successes + st.metrics.errors + 1
    ensures r.Raised? ==> r.state.metrics.errors == st.metrics.errors
  {
    var st1 := CountRequest(st);
    match GetCachedResult(st.cache, now, url, env.codec)
    case Failure(e) => Raised(st1, e)
    case Success(cached) =>
      if cached.Some? && Truthy(cached.value) then Served(st1, cached.value)
      else
        var st2 := st1.(calls := st1.calls + [Call(url, env.scrapeTimeout)]);
        match env.scraper(url, env.scrapeTimeout)
        case Throws(e) => Raised(st2, e)
        case Returns(result) =>
          match Contains(result, "error")
          case Failure(e) => Raised(st2, e)
          case Success(hasError) =>
            if hasError then Served(CountError(st2), result)
            else
              var st3 := CountSuccess(st2);
              match CacheKey(url, result, rule)
              case Failure(e) => Raised(st3, e)
              case Success(key) =>
                match SetCachedResult(st3.cache, WrittenAt(now, url, env), key, result, env.cacheExpiration, env.codec)
                case Failure(e) => Raised(st3, e)
                case Success(store) => Served(st3.(cache := store), result)
  }

  /** A hit returns the cached value unchanged: no scraper call, no cache write, only the request counted. */
  lemma HitSkipsScraper(st: State, url: string, now: int, env: Env, rule: KeyRule)
    requires IsHit(st.cache, now, url, env.codec)
    ensures ServeUrl(st, url, now, env, rule) == Served(CountRequest(st), HitValue(st.cache, now, url, env.codec))
  {
  }

  /** A miss calls the scraper exactly once, with the URL and the configured timeout. */
  lemma MissScrapesOnce(st: State, url: string, now: int, env: Env, rule: KeyRule)
    requires IsMiss(st.cache, now, url, env.codec)
    ensures ServeUrl(st, url, now, env, rule).state.calls == st.calls + [Call(url, env.scrapeTimeout)]
    ensures ServeUrl(st, url, now, env, rule).Served? ==>
      env.scraper(url, env.scrapeTimeout) == Returns(ServeUrl(st, url, now, env, rule).value)
  {
  }

  /** An exception leaves the cache as it was. */
  lemma RaisedKeepsCache(st: State, url: string, now: int, env: Env, rule: KeyRule)
    requires ServeUrl(st, url, now, env, rule).Raised?
    ensures ServeUrl(st, url, now, env, rule).state.cache == st.cache
  {
  }

  /** `POST /scrape`: one URL; any exception becomes a 500 and exactly one more error. */
  function Scrape(st: State, url: string, now: int, env: Env): (r: Reply)
    ensures r.state.metrics.requests == st.metrics.requests + 1
    ensures r.response.HttpError? ==> r.response.status == 500 && r.state.metrics.errors == st.metrics.errors + 1
    ensures r.response.Ok? ==> r.state.metrics.errors <= st.metrics.errors + 1
    ensures r.response.Ok? <==> ServeUrl(st, url, now, env, RequestUrl).Served?
    ensures r.response.Ok? ==>
      r.response.body == ServeUrl(st, url, now, env, RequestUrl).value && r.state == ServeUrl(st, url, now, env, RequestUrl).state
  {
    match ServeUrl(st, url, now, env, RequestUrl)
    case Served(s, v) => Reply(s, Ok(v))
    case Raised(s, e) => Reply(CountError(s), HttpError(500, "Error during scraping: " + e.message))
  }

  /** `/scrape` on a hit answers with the cached value and counts only the request. */
  lemma ScrapeHit(st: State, url: string, now: int, env: Env)
    requires IsHit(st.cache, now, url, env.codec)
    ensures Scrape(st, url, now, env) == Reply(CountRequest(st), Ok(HitValue(st.cache, now, url, env.codec)))
  {
    HitSkipsScraper(st, url, now, env, RequestUrl);
  }

  /**
   * `/scrape` on a miss whose scrape returns a dict: the answer is that result,
   * whether it carries an `error` key (counted as an error, not cached) or not
   * (counted as a success and cached under the request URL).
   */
  lemma ScrapeMiss(st: State, url: string, now: int, env: Env, result: Json)
    requires IsMiss(st.cache, now, url, env.codec)
    requires env.scraper(url, env.scrapeTimeout) == Returns(result) && result.JObj?
    requires env.cacheExpiration > 0
    ensures Scrape(st, url, now, env).response == Ok(result)
    ensures Scrape(st, url, now, env).state.calls == st.calls + [Call(url, env.scrapeTimeout)]
    ensures "error" in result.fields ==> Scrape(st, url, now, env).state.cache == st.cache
    ensures "error" !in result.fields ==>
      Scrape(st, url, now, env).state.cache == st.cache[url := Entry(env.codec.dumps(result), WrittenAt(now, url, env) + env.cacheExpiration)]
  {
  }

  /**
   * Under the default settings, a fresh result served by `/scrape` was fetched
   * with a 30000 ms timeout and stays readable in the cache for exactly 300
   * seconds, counted from the write that follows the scrape.
   */
  lemma DefaultSettingsCacheFiveMinutes(st: State, url: string, now: int, s: CoreConfig.Settings,
                                        scraper: (string, int) -> ScrapeOutcome, duration: (string, int) -> nat,
                                        codec: Codec, result: Json)
    requires s.cacheExpiration == CoreConfig.DefaultCacheExpiration && s.scrapeTimeout == CoreConfig.DefaultScrapeTimeout
    requires Lossless(codec) && IsMiss(st.cache, now, url, codec)
    requires scraper(url, 30000) == Returns(result) && result.JObj? && "error" !in result.fields
    ensures var written := now + duration(url, 30000);
      var after := Scrape(st, url, now, Configure(s, scraper, duration, codec)).state;
      && after.calls == st.calls + [Call(url, 30000)]
      && GetCachedResult(after.cache, written + 299, url, codec) == Success(Some(result))
      && GetCachedResult(after.cache, written + 300, url, codec) == Success(None)
  {
    var env := Configure(s, scraper, duration, codec);
    var written := WrittenAt(now, url, env);
    ScrapeMiss(st, url, now, env, result);
    SetThenGet(st.cache, written, url, result, 300, codec, written + 299);
    SetThenGet(st.cache, written, url, result, 300, codec, written + 300);
  }

  /**
   * The time to live runs from the write, not from the lookup: when the scrape
   * takes time, the entry is still there `REDIS_CACHE_EXPIRATION` seconds after
   * the lookup.
   */
  lemma ExpiryCountsFromWrite(st: State, url: string, now: int, env: Env, result: Json)
    requires IsMiss(st.cache, now, url, env.codec) && Lossless(env.codec) && env.cacheExpiration > 0
    requires env.scraper(url, env.scrapeTimeout) == Returns(result) && result.JObj? && "error" !in result.fields
    requires env.scrapeDuration(url, env.scrapeTimeout) > 0
    ensures GetCachedResult(Scrape(st, url, now, env).state.cache, now + env.cacheExpiration, url, env.codec) == Success(Some(result))
  {
    var written := WrittenAt(now, url, env);
    ScrapeMiss(st, url, now, env, result);
    SetThenGet(st.cache, written, url, result, env.cacheExpiration, env.codec, now + env.cacheExpiration);
  }

  /**
   * `/scrape` when the scraper raises on a miss: a 500 whose detail carries the
   * exception's message, one error counted, nothing cached, one scraper call logged.
   */
  lemma ScrapeFailure(st: State, url: string, now: int, env: Env, e: PyError)
    requires IsMiss(st.cache, now, url, env.codec)
    requires env.scraper(url, env.scrapeTimeout) == Throws(e)
    ensures Scrape(st, url, now, env).response == HttpError(500, "Error during scraping: " + e.message)
    ensures Scrape(st, url, now, env).state.metrics ==
      st.metrics.(requests := st.metrics.requests + 1, errors := st.metrics.errors + 1)
    ensures Scrape(st, url, now, env).state.cache == st.cache
    ensures Scrape(st, url, now, env).state.calls == st.calls + [Call(url, env.scrapeTimeout)]
  {
  }

  /** How a batch ends inside the `try` block: every URL served, or an exception. */
  datatype BatchRun = Finished(state: State, items: seq<Json>) | Aborted(state: State, error: PyError)

  /** The body of the `for` loop: what handling one URL at one time does to the state. */
  type Handler = (State, string, int) -> Step

  /**
   * The `for` loop of `/scrape_multiple`: the URLs in order, URL `i` handled at
   * `clock(i)` in the state the URLs before it left, stopping at the first exception.
   */
  function Loop(handle: Handler, st: State, urls: seq<string>, clock: nat -> int): (r: BatchRun)
    ensures r.Finished? ==> |r.items| == |urls|
    decreases |urls|
  {
    if urls == [] then Finished(st, [])
    else
      match Loop(handle, st, urls[..|urls| - 1], clock)
      case Aborted(s, e) => Aborted(s, e)
      case Finished(s, items) =>
        match handle(s, urls[|urls| - 1], clock(|urls| - 1))
        case Raised(s2, e) => Aborted(s2, e)
        case Served(s2, v) => Finished(s2, items + [v])
  }

  /** What `/scrape_multiple` does per URL: a fresh result is cached under its own `url`. */
  function BatchHandler(env: Env): Handler {
    (s: State, url: string, now: int) => ServeUrl(s, url, now, env, ResultUrl)
  }

  /** The loop of `/scrape_multiple` with its handler. */
  function Run(st: State, urls: seq<string>, clock: nat -> int, env: Env): BatchRun {
    Loop(BatchHandler(env), st, urls, clock)
  }

  /**
   * The counters and the scraper-call log across a batch: one request per URL
   * reached, at most one scraper call per URL, the earlier log kept as a prefix,
   * and, for a finished batch, one success or error per scraper call.
   */
  lemma {:induction false} RunCounters(st: State, urls: seq<string>, clock: nat -> int, env: Env)
    ensures var r := Run(st, urls, clock, env);
      && (r.Finished? ==> r.state.metrics.requests == st.metrics.requests + |urls|)
      && (r.Aborted? ==> st.metrics.requests < r.state.metrics.requests <= st.metrics.requests + |urls|)
      && |st.calls| <= |r.state.calls| <= |st.calls| + |urls|
      && r.state.calls[..|st.calls|] == st.calls
      && (r.Finished? ==>
            r.state.metrics.successes + r.state.metrics.errors ==
            st.metrics.successes + st.metrics.errors + |r.state.calls| - |st.calls|)
    decreases |urls|
  {
    if urls != [] {
      var front := urls[..|urls| - 1];
      RunCounters(st, front, clock, env);
      match Run(st, front, clock, env)
      case Aborted(_, _) =>
      case Finished(s, _) =>
        var step := ServeUrl(s, urls[|urls| - 1], clock(|urls| - 1), env, ResultUrl);
        assert step.state.calls[..|s.calls|] == s.calls;
        assert step.state.calls[..|st.calls|] == s.calls[..|st.calls|];
    }
  }

  /** `POST /scrape_multiple`: the list of per-URL results, or one 500 for the whole request. */
  function ScrapeMultiple(st: State, urls: seq<string>, clock: nat -> int, env: Env): (r: Reply)
    ensures r.state.metrics.requests >= st.metrics.requests
    ensures r.response.Ok? <==> Run(st, urls, clock, env).Finished?
    ensures r.response.Ok? ==> r.response.body.JArr? && |r.response.body.items| == |urls|
    ensures r.response.HttpError? ==>
      && r.response.status == 500
      && r.state.metrics.errors == Run(st, urls, clock, env).state.metrics.errors + 1
    ensures r.response.Ok? ==>
      r.response.body == JArr(Run(st, urls, clock, env).items) && r.state == Run(st, urls, clock, env).state
  {
    RunCounters(st, urls, clock, env);
    match Run(st, urls, clock, env)
    case Finished(s, items) => Reply(s, Ok(JArr(items)))
    case Aborted(s, e) => Reply(CountError(s), HttpError(500, "Error during multiple scraping: " + e.message))
  }

  /** A result carrying an `error` key is returned and counted as an error, and the cache is left alone. */
  lemma ErrorResultNotCached(st: State, url: string, now: int, env: Env, rule: KeyRule, result: Json)
    requires IsMiss(st.cache, now, url, env.codec)
    requires env.scraper(url, env.scrapeTimeout) == Returns(result)
    requires Contains(result, "error") == Success(true)
    ensures ServeUrl(st, url, now, env, rule) ==
      Served(CountError(CountRequest(st).(calls := st.calls + [Call(url, env.scrapeTimeout)])), result)
    ensures ServeUrl(st, url, now, env, rule).state.cache == st.cache
  {
  }

  /**
   * A result without an `error` key is counted as a success and written under its
   * cache key, where a later read within the time to live finds it again.
   */
  lemma SuccessCached(st: State, url: string, now: int, env: Env, rule: KeyRule, result: Json, key: string, later: int)
    requires IsMiss(st.cache, now, url, env.codec)
    requires env.scraper(url, env.scrapeTimeout) == Returns(result)
    requires Contains(result, "error") == Success(false)
    requires CacheKey(url, result, rule) == Success(key)
    requires env.cacheExpiration > 0 && Lossless(env.codec)
    ensures ServeUrl(st, url, now, env, rule).Served?
    ensures ServeUrl(st, url, now, env, rule).value == result
    ensures ServeUrl(st, url, now, env, rule).state.metrics.successes == st.metrics.successes + 1
    ensures ServeUrl(st, url, now, env, rule).state.metrics.errors == st.metrics.errors
    ensures GetCachedResult(ServeUrl(st, url, now, env, rule).state.cache, later, key, env.codec) ==
      (if later < WrittenAt(now, url, env) + env.cacheExpiration then Success(Some(result)) else Success(None))
  {
    SetThenGet(st.cache, WrittenAt(now, url, env), key, result, env.cacheExpiration, env.codec, later);
  }

  /**
   * The two handlers cache a fresh result under different keys: `/scrape` under
   * the request URL, `/scrape_multiple` under the result's own `url`, leaving
   * the request URL's entry as it was when the two differ.
   */
  lemma BatchKeyIsResultUrl(st: State, url: string, now: int, env: Env, result: Json, resultUrl: string)
    requires IsMiss(st.cache, now, url, env.codec)
    requires env.scraper(url, env.scrapeTimeout) == Returns(result)
    requires result.JObj? && "error" !in result.fields && "url" in result.fields && result.fields["url"] == JStr(resultUrl)
    requires env.cacheExpiration > 0
    ensures ServeUrl(st, url, now, env, RequestUrl).state.cache ==
      st.cache[url := Entry(env.codec.dumps(result), WrittenAt(now, url, env) + env.cacheExpiration)]
    ensures ServeUrl(st, url, now, env, ResultUrl).state.cache ==
      st.cache[resultUrl := Entry(env.codec.dumps(result), WrittenAt(now, url, env) + env.cacheExpiration)]
  {
  }

  /** Appending a URL runs the handler once more, unless the loop has already raised. */
  lemma LoopStep(handle: Handler, st: State, urls: seq<string>, url: string, clock: nat -> int)
    ensures Loop(handle, st, urls + [url], clock) ==
      match Loop(handle, st, urls, clock)
      case Aborted(s, e) => Aborted(s, e)
      case Finished(s, items) =>
        (match handle(s, url, clock(|urls|))
         case Raised(s2, e) => Aborted(s2, e)
         case Served(s2, v) => Finished(s2, items + [v]))
  {
    assert (urls + [url])[..|urls|] == urls;
  }

  /** The last URL of a finished loop: handled in the state the other URLs left behind. */
  lemma LoopLastStep(handle: Handler, st: State, urls: seq<string>, clock: nat -> int)
    requires Loop(handle, st, urls, clock).Finished? && |urls| > 0
    ensures Loop(handle, st, urls[..|urls| - 1], clock).Finished?
    ensures Loop(handle, st, urls, clock).items[..|urls| - 1] == Loop(handle, st, urls[..|urls| - 1], clock).items
    ensures handle(Loop(handle, st, urls[..|urls| - 1], clock).state, urls[|urls| - 1], clock(|urls| - 1)) ==
      Served(Loop(handle, st, urls, clock).state, Loop(handle, st, urls, clock).items[|urls| - 1])
  {
  }

  /** Every prefix of a finished loop is itself a finished loop, with the matching prefix of the items. */
  lemma {:induction false} LoopPrefix(handle: Handler, st: State, urls: seq<string>, clock: nat -> int, k: nat)
    requires Loop(handle, st, urls, clock).Finished? && k <= |urls|
    ensures Loop(handle, st, urls[..k], clock).Finished?
    ensures Loop(handle, st, urls[..k], clock).items == Loop(handle, st, urls, clock).items[..k]
    decreases |urls| - k
  {
    if k < |urls| {
      var items := Loop(handle, st, urls, clock).items;
      var pre := urls[..k + 1];
      LoopPrefix(handle, st, urls, clock, k + 1);
      LoopLastStep(handle, st, pre, clock);
      assert pre[..k] == urls[..k];
      assert items[..k + 1][..k] == items[..k];
    } else {
      assert urls[..k] == urls;
    }
  }

  /** URL `i` is handled in the state `urls[..i]` left behind, and what it yields is item `i`. */
  lemma LoopInOrder(handle: Handler, st: State, urls: seq<string>, clock: nat -> int, i: nat)
    requires Loop(handle, st, urls, clock).Finished? && i < |urls|
    ensures Loop(handle, st, urls[..i], clock).Finished?
    ensures handle(Loop(handle, st, urls[..i], clock).state, urls[i], clock(i)) ==
      Served(Loop(handle, st, urls[..i + 1], clock).state, Loop(handle, st, urls, clock).items[i])
  {
    var pre := urls[..i + 1];
    LoopPrefix(handle, st, urls, clock, i + 1);
    LoopLastStep(handle, st, pre, clock);
    assert pre[..i] == urls[..i] && pre[i] == urls[i];
  }

  /** Once the loop has raised, the rest of the URLs do not matter. */
  lemma {:induction false} LoopAbortedStays(handle: Handler, st: State, urls: seq<string>, clock: nat -> int, k: nat)
    requires k <= |urls| && Loop(handle, st, urls[..k], clock).Aborted?
    ensures Loop(handle, st, urls, clock) == Loop(handle, st, urls[..k], clock)
    decreases |urls| - k
  {
    if k < |urls| {
      assert urls[..k + 1][..k] == urls[..k];
      LoopAbortedStays(handle, st, urls, clock, k + 1);
    } else {
      assert urls[..k] == urls;
    }
  }

  /** `/scrape_multiple` after `urls[..i]` is exactly the state URL `i` is handled in. */
  lemma BatchInOrder(st: State, urls: seq<string>, clock: nat -> int, env: Env, i: nat)
    requires Run(st, urls, clock, env).Finished? && i < |urls|
    ensures Run(st, urls[..i], clock, env).Finished?
    ensures ServeUrl(Run(st, urls[..i], clock, env).state, urls[i], clock(i), env, ResultUrl) ==
      Served(Run(st, urls[..i + 1], clock, env).state, Run(st, urls, clock, env).items[i])
  {
    LoopInOrder(BatchHandler(env), st, urls, clock, i);
  }

  /**
   * Element `i` of a batch is what the cache held for URL `i` at that point, when
   * that was a hit, and otherwise the scraper's result for URL `i`.
   */
  lemma BatchElementSource(st: State, urls: seq<string>, clock: nat -> int, env: Env, i: nat)
    requires Run(st, urls, clock, env).Finished? && i < |urls|
    ensures var before := Run(st, urls[..i], clock, env).state;
      var item := Run(st, urls, clock, env).items[i];
      if IsHit(before.cache, clock(i), urls[i], env.codec)
      then item == HitValue(before.cache, clock(i), urls[i], env.codec)
      else env.scraper(urls[i], env.scrapeTimeout) == Returns(item)
  {
    BatchInOrder(st, urls, clock, env, i);
    var before := Run(st, urls[..i], clock, env).state;
    ServedSource(before, urls[i], clock(i), env, ResultUrl);
  }

  /** What a served URL returns: the cached value on a hit, the scraper's result otherwise. */
  lemma ServedSource(st: State, url: string, now: int, env: Env, rule: KeyRule)
    requires ServeUrl(st, url, now, env, rule).Served?
    ensures if IsHit(st.cache, now, url, env.codec)
      then ServeUrl(st, url, now, env, rule).value == HitValue(st.cache, now, url, env.codec)
      else env.scraper(url, env.scrapeTimeout) == Returns(ServeUrl(st, url, now, env, rule).value)
  {
    if !IsHit(st.cache, now, url, env.codec) {
      MissScrapesOnce(st, url, now, env, rule);
    }
  }

  /** Every URL of a batch is a hit in `cache` at its own time (stated the way the loop runs). */
  predicate AllHits(cache: Store, urls: seq<string>, clock: nat -> int, codec: Codec)
    decreases |urls|
  {
    urls == [] ||
    (AllHits(cache, urls[..|urls| - 1], clock, codec) && IsHit(cache, clock(|urls| - 1), urls[|urls| - 1], codec))
  }

  /** `AllHits` holds of every prefix, and says that each URL is a hit. */
  lemma {:induction false} AllHitsPrefix(cache: Store, urls: seq<string>, clock: nat -> int, codec: Codec, k: nat)
    requires AllHits(cache, urls, clock, codec) && k <= |urls|
    ensures AllHits(cache, urls[..k], clock, codec)
    ensures k < |urls| ==> IsHit(cache, clock(k), urls[k], codec)
    decreases |urls| - k
  {
    if k < |urls| {
      AllHitsPrefix(cache, urls, clock, codec, k + 1);
      var pre := urls[..k + 1];
      assert pre[..k] == urls[..k] && pre[k] == urls[k];
    } else {
      assert urls[..k] == urls;
    }
  }

  /** `AllHits` is exactly "URL `i` is a hit at `clock(i)`, for every `i`". */
  lemma {:induction false} AllHitsMeaning(cache: Store, urls: seq<string>, clock: nat -> int, codec: Codec)
    ensures AllHits(cache, urls, clock, codec) <==> forall i :: 0 <= i < |urls| ==> IsHit(cache, clock(i), urls[i], codec)
    decreases |urls|
  {
    if urls != [] {
      var front := urls[..|urls| - 1];
      AllHitsMeaning(cache, front, clock, codec);
      assert forall i :: 0 <= i < |front| ==> front[i] == urls[i];
    }
  }

  /** URLs that are all cache hits: answered without a single scraper call or cache write. */
  lemma {:induction false} HitsNeverScrape(st: State, urls: seq<string>, clock: nat -> int, env: Env)
    requires AllHits(st.cache, urls, clock, env.codec)
    ensures Run(st, urls, clock, env).Finished?
    ensures Run(st, urls, clock, env).state.calls == st.calls
    ensures Run(st, urls, clock, env).state.cache == st.cache
    ensures Run(st, urls, clock, env).state.metrics == st.metrics.(requests := st.metrics.requests + |urls|)
    decreases |urls|
  {
    if urls != [] {
      var n := |urls| - 1;
      var front := urls[..n];
      HitsNeverScrape(st, front, clock, env);
      var prev := Run(st, front, clock, env);
      HitSkipsScraper(prev.state, urls[n], clock(n), env, ResultUrl);
    }
  }

  /** ... and answered from the cache as it was when the batch began, item by item. */
  lemma HitsServedFromCache(st: State, urls: seq<string>, clock: nat -> int, env: Env, i: nat)
    requires AllHits(st.cache, urls, clock, env.codec) && i < |urls|
    ensures IsHit(st.cache, clock(i), urls[i], env.codec)
    ensures Run(st, urls, clock, env).Finished?
    ensures Run(st, urls, clock, env).items[i] == HitValue(st.cache, clock(i), urls[i], env.codec)
  {
    HitsNeverScrape(st, urls, clock, env);
    AllHitsPrefix(st.cache, urls, clock, env.codec, i);
    HitsNeverScrape(st, urls[..i], clock, env);
    BatchElementSource(st, urls, clock, env, i);
  }

  /**
   * A URL repeated in a batch: when its first occurrence misses and scrapes a
   * result without `error` whose `url` is that URL, the second occurrence, if it
   * comes within the time to live of the write, is served from the cache without scraping.
   */
  lemma RepeatedUrlScrapedOnce(st: State, url: string, clock: nat -> int, env: Env, result: Json)
    requires Lossless(env.codec) && env.cacheExpiration > 0
    requires IsMiss(st.cache, clock(0), url, env.codec)
    requires env.scraper(url, env.scrapeTimeout) == Returns(result)
    requires result.JObj? && "error" !in result.fields && "url" in result.fields && result.fields["url"] == JStr(url)
    requires clock(1) < WrittenAt(clock(0), url, env) + env.cacheExpiration
    ensures Run(st, [url, url], clock, env).Finished?
    ensures Run(st, [url, url], clock, env).items == [result, result]
    ensures Run(st, [url, url], clock, env).state.calls == st.calls + [Call(url, env.scrapeTimeout)]
  {
    var first := ServeUrl(st, url, clock(0), env, ResultUrl);
    SuccessCached(st, url, clock(0), env, ResultUrl, result, url, clock(1));
    LoopStep(BatchHandler(env), st, [], url, clock);
    assert [] + [url] == [url];
    assert Run(st, [url], clock, env) == Finished(first.state, [result]);
    assert Truthy(result) by { assert "url" in result.fields; }
    assert IsHit(first.state.cache, clock(1), url, env.codec);
    LoopStep(BatchHandler(env), st, [url], url, clock);
    assert [url] + [url] == [url, url];
  }

  /**
   * A batch whose first URL is cached and whose second is not: the cached value
   * and the fresh result, in request order, with a single scraper call.
   */
  lemma PartiallyCachedBatch(st: State, cached: string, uncached: string, clock: nat -> int, env: Env, result: Json)
    requires IsHit(st.cache, clock(0), cached, env.codec)
    requires IsMiss(st.cache, clock(1), uncached, env.codec)
    requires env.scraper(uncached, env.scrapeTimeout) == Returns(result)
    requires result.JObj? && "error" !in result.fields && "url" in result.fields && result.fields["url"].JStr?
    requires env.cacheExpiration > 0
    ensures Run(st, [cached, uncached], clock, env).Finished?
    ensures Run(st, [cached, uncached], clock, env).items == [HitValue(st.cache, clock(0), cached, env.codec), result]
    ensures Run(st, [cached, uncached], clock, env).state.calls == st.calls + [Call(uncached, env.scrapeTimeout)]
    ensures Run(st, [cached, uncached], clock, env).state.metrics ==
      st.metrics.(requests := st.metrics.requests + 2, successes := st.metrics.successes + 1)
  {
    HitSkipsScraper(st, cached, clock(0), env, ResultUrl);
    LoopStep(BatchHandler(env), st, [], cached, clock);
    assert [] + [cached] == [cached];
    assert Run(st, [cached], clock, env) == Finished(CountRequest(st), [HitValue(st.cache, clock(0), cached, env.codec)]);
    LoopStep(BatchHandler(env), st, [cached], uncached, clock);
    assert [cached] + [uncached] == [cached, uncached];
  }

  /** The batch never caches the scraper's answer for `v` under `key`: it raises, or its `url` names another key. */
  predicate NeverCachedUnder(env: Env, v: string, key: string) {
    match env.scraper(v, env.scrapeTimeout)
    case Throws(_) => true
    case Returns(result) => CacheKey(v, result, ResultUrl) != Success(key)
  }

  /** A live entry holding a truthy value is a hit, and the hit is that value. */
  lemma LiveEntryHits(cache: Store, now: int, key: string, codec: Codec, result: Json, expiry: int)
    requires Lossless(codec) && Truthy(result)
    requires key in cache && cache[key] == Entry(codec.dumps(result), expiry) && now < expiry
    ensures IsHit(cache, now, key, codec) && HitValue(cache, now, key, codec) == result
  {
    assert codec.dumps(result) != "" && codec.loads(codec.dumps(result)) == Some(result);
  }

  /** A served URL that is a hit, or whose answer is never cached under `key`, leaves `key`'s entry alone. */
  lemma ServeKeepsEntry(s: State, v: string, now: int, env: Env, key: string)
    requires ServeUrl(s, v, now, env, ResultUrl).Served? && key in s.cache
    requires IsHit(s.cache, now, v, env.codec) || NeverCachedUnder(env, v, key)
    ensures key in ServeUrl(s, v, now, env, ResultUrl).state.cache
    ensures ServeUrl(s, v, now, env, ResultUrl).state.cache[key] == s.cache[key]
  {
    if IsHit(s.cache, now, v, env.codec) {
      HitSkipsScraper(s, v, now, env, ResultUrl);
    }
  }

  /** `cache` holds `result` under `key` until `expiry`. */
  predicate HoldsUntil(cache: Store, key: string, codec: Codec, result: Json, expiry: int) {
    key in cache && cache[key] == Entry(codec.dumps(result), expiry)
  }

  /** URL `v` at `now` cannot replace an entry under `key` living until `expiry`: it is `key` while the entry lives, a hit, or never cached under `key`. */
  predicate SparesEntry(cache: Store, v: string, now: int, env: Env, key: string, expiry: int) {
    (v == key && now < expiry) || IsHit(cache, now, v, env.codec) || NeverCachedUnder(env, v, key)
  }

  /** One served URL that spares the entry under `key` keeps it. */
  lemma KeepStep(s: State, v: string, now: int, env: Env, key: string, result: Json, expiry: int, s2: State, item: Json)
    requires ServeUrl(s, v, now, env, ResultUrl) == Served(s2, item)
    requires Lossless(env.codec) && Truthy(result)
    requires HoldsUntil(s.cache, key, env.codec, result, expiry)
    requires SparesEntry(s.cache, v, now, env, key, expiry)
    ensures HoldsUntil(s2.cache, key, env.codec, result, expiry)
  {
    if v == key && now < expiry {
      LiveEntryHits(s.cache, now, key, env.codec, result, expiry);
    }
    ServeKeepsEntry(s, v, now, env, key);
  }

  /** Step `n` of a finished batch keeps the entry under `key` when URL `n` spares it. */
  lemma BatchStepKeeps(st: State, urls: seq<string>, clock: nat -> int, env: Env,
                       key: string, result: Json, expiry: int, n: nat)
    requires Run(st, urls, clock, env).Finished? && n < |urls|
    requires Lossless(env.codec) && Truthy(result)
    requires HoldsUntil(Run(st, urls[..n], clock, env).state.cache, key, env.codec, result, expiry)
    requires SparesEntry(Run(st, urls[..n], clock, env).state.cache, urls[n], clock(n), env, key, expiry)
    ensures HoldsUntil(Run(st, urls[..n + 1], clock, env).state.cache, key, env.codec, result, expiry)
  {
    BatchInOrder(st, urls, clock, env, n);
    KeepStep(Run(st, urls[..n], clock, env).state, urls[n], clock(n), env, key, result, expiry,
             Run(st, urls[..n + 1], clock, env).state, Run(st, urls, clock, env).items[n]);
  }

  /**
   * Along a finished batch, the entry that step `i` wrote under `key` survives
   * up to step `m` when every URL in between spares it.
   */
  lemma {:induction false} EntryKeptUntil(st: State, urls: seq<string>, clock: nat -> int, env: Env,
                                          key: string, result: Json, expiry: int, i: nat, m: nat)
    requires Run(st, urls, clock, env).Finished? && i < m <= |urls|
    requires Lossless(env.codec) && Truthy(result)
    requires HoldsUntil(Run(st, urls[..i + 1], clock, env).state.cache, key, env.codec, result, expiry)
    requires forall n {:trigger urls[n]} :: i < n < m ==> SparesEntry(Run(st, urls[..n], clock, env).state.cache, urls[n], clock(n), env, key, expiry)
    ensures HoldsUntil(Run(st, urls[..m], clock, env).state.cache, key, env.codec, result, expiry)
    decreases m
  {
    if m > i + 1 {
      EntryKeptUntil(st, urls, clock, env, key, result, expiry, i, m - 1);
      BatchStepKeeps(st, urls, clock, env, key, result, expiry, m - 1);
    }
  }

  /**
   * A URL that recurs later in a finished batch, after other URLs: when its
   * first occurrence `i` misses and scrapes a result without `error` whose `url`
   * is that URL, and no URL in between replaces the entry, occurrence `j` within
   * the time to live is a hit: it is that result, with no scraper call.
   */
  lemma RepeatedUrlServedFromCache(st: State, urls: seq<string>, clock: nat -> int, env: Env, result: Json, i: nat, j: nat)
    requires Run(st, urls, clock, env).Finished? && i < j < |urls| && urls[i] == urls[j]
    requires Lossless(env.codec) && env.cacheExpiration > 0
    requires IsMiss(Run(st, urls[..i], clock, env).state.cache, clock(i), urls[i], env.codec)
    requires env.scraper(urls[i], env.scrapeTimeout) == Returns(result)
    requires result.JObj? && "error" !in result.fields && "url" in result.fields && result.fields["url"] == JStr(urls[i])
    requires forall n {:trigger urls[n]} :: i < n < j ==> SparesEntry(Run(st, urls[..n], clock, env).state.cache, urls[n], clock(n), env,
                                                   urls[i], WrittenAt(clock(i), urls[i], env) + env.cacheExpiration)
    requires clock(j) < WrittenAt(clock(i), urls[i], env) + env.cacheExpiration
    ensures IsHit(Run(st, urls[..j], clock, env).state.cache, clock(j), urls[j], env.codec)
    ensures Run(st, urls, clock, env).items[j] == result
    ensures Run(st, urls[..j + 1], clock, env).state.calls == Run(st, urls[..j], clock, env).state.calls
  {
    var u := urls[i];
    var expiry := WrittenAt(clock(i), u, env) + env.cacheExpiration;
    BatchInOrder(st, urls, clock, env, i);
    BatchKeyIsResultUrl(Run(st, urls[..i], clock, env).state, u, clock(i), env, result, u);
    assert Truthy(result) by { assert "url" in result.fields; }
    EntryKeptUntil(st, urls, clock, env, u, result, expiry, i, j);
    var before := Run(st, urls[..j], clock, env).state;
    LiveEntryHits(before.cache, clock(j), u, env.codec, result, expiry);
    BatchInOrder(st, urls, clock, env, j);
    HitSkipsScraper(before, u, clock(j), env, ResultUrl);
  }

  /** Results shaped like the page scraper's always satisfy the repeated-URL conditions on the result. */
  lemma RepeatedPageScrapedOnce(st: State, urls: seq<string>, clock: nat -> int, env: Env,
                                products: seq<PageScraper.ProductInfo>, i: nat, j: nat)
    requires Run(st, urls, clock, env).Finished? && i < j < |urls| && urls[i] == urls[j]
    requires Lossless(env.codec) && env.cacheExpiration > 0
    requires IsMiss(Run(st, urls[..i], clock, env).state.cache, clock(i), urls[i], env.codec)
    requires env.scraper(urls[i], env.scrapeTimeout) == Returns(PageScraper.ToJson(PageScraper.ScrapeOutput(urls[i], products)))
    requires forall n {:trigger urls[n]} :: i < n < j ==> SparesEntry(Run(st, urls[..n], clock, env).state.cache, urls[n], clock(n), env,
                                                   urls[i], WrittenAt(clock(i), urls[i], env) + env.cacheExpiration)
    requires clock(j) < WrittenAt(clock(i), urls[i], env) + env.cacheExpiration
    ensures Run(st, urls, clock, env).items[j] == PageScraper.ToJson(PageScraper.ScrapeOutput(urls[i], products))
    ensures Run(st, urls[..j + 1], clock, env).state.calls == Run(st, urls[..j], clock, env).state.calls
  {
    var result := PageScraper.ToJson(PageScraper.ScrapeOutput(urls[i], products));
    PageScraper.ScrapeOutputShape(PageScraper.ScrapeOutput(urls[i], products));
    RepeatedUrlServedFromCache(st, urls, clock, env, result, i, j);
  }

  /** The `for` loop of `/scrape_multiple`, leaving the loop at the first exception. */
  method ScrapeMultipleLoop(st: State, urls: seq<string>, clock: nat -> int, env: Env) returns (r: Reply)
    ensures r == ScrapeMultiple(st, urls, clock, env)
  {
    var state := st;
    var results: seq<Json> := [];
    var i := 0;
    while i < |urls|
      invariant i <= |urls|
      invariant Run(st, urls[..i], clock, env) == Finished(state, results)
    {
      assert urls[..i + 1][..i] == urls[..i];
      match ServeUrl(state, urls[i], clock(i), env, ResultUrl)
      case Raised(s, e) =>
        assert Run(st, urls[..i + 1], clock, env) == Aborted(s, e);
        LoopAbortedStays(BatchHandler(env), st, urls, clock, i + 1);
        return Reply(CountError(s), HttpError(500, "Error during multiple scraping: " + e.message));
      case Served(s, v) =>
        state := s;
        results := results + [v];
      i := i + 1;
    }
    assert urls[..i] == urls;
    r := Reply(state, Ok(JArr(results)));
  }

}

=== FILE: json.dfy ===
/**
 * JSON values as Python holds them after `json.loads`, and the few Python
 * operations the scraper applies to them: subscripting (`v[k]`), the `in`
 * operator, truthiness and the exceptions these raise.
 */
module Json {
  import opened Wrappers
  import opened PyText

  /** Objects are Python dicts keyed by strings; numbers are integers. */
  datatype Json =
    | JNull
    | JBool(b: bool)
    | JNum(n: int)
    | JStr(s: string)
    | JArr(items: seq<Json>)
    | JObj(fields: map<string, Json>)

  /** The Python exception classes the modelled code raises or catches. */
  datatype ErrorKind =
    | KeyError
    | IndexError
    | TypeError
    | StopIteration
    | JSONDecodeError
    | ValueError
    | DataError      // redis-py refusing a key it cannot encode
    | ResponseError  // the Redis server refusing a command

  /** An exception: its class and `str(e)`. */
  datatype PyError = PyError(kind: ErrorKind, message: string)

  /** `type(v).__name__`, as CPython writes it into its messages. */
  function TypeName(v: Json): string {
    match v
    case JNull => "NoneType"
    case JBool(_) => "bool"
    case JNum(_) => "int"
    case JStr(_) => "str"
    case JArr(_) => "list"
    case JObj(_) => "dict"
  }

  /** A subscript: `v["name"]` or `v[0]`. */
  datatype Key = KStr(k: string) | KInt(i: int)

  /** `bool(v)`: empty containers, `""`, `0`, `False` and `None` are falsy. */
  predicate Truthy(v: Json) {
    match v
    case JNull => false
    case JBool(b) => b
    case JNum(n) => n != 0
    case JStr(s) => s != ""
    case JArr(xs) => xs != []
    case JObj(m) => m != map[]
  }

  /** Python's negative indices count from the end. */
  predicate InBounds(i: int, len: nat) {
    -(len as int) <= i < len
  }

  function Normalize(i: int, len: nat): (k: nat)
    requires InBounds(i, len)
    ensures k < len
  {
    if i < 0 then len + i else i
  }

  /** `v[key]`: dicts by string key, lists and strings by integer index, anything else a TypeError. */
  function GetItem(v: Json, key: Key): (r: Result<Json, PyError>)
    ensures r.Success? <==>
      || (v.JObj? && key.KStr? && key.k in v.fields)
      || ((v.JArr? || v.JStr?) && key.KInt? && InBounds(key.i, if v.JArr? then |v.items| else |v.s|))
    ensures v.JObj? && key.KStr? ==> (r.Success? <==> key.k in v.fields)
    ensures r.Success? && v.JObj? ==> r.value == v.fields[key.k]
    ensures r.Success? && v.JArr? ==> r.value == v.items[Normalize(key.i, |v.items|)]
    ensures r.Success? && v.JStr? ==> r.value == JStr([v.s[Normalize(key.i, |v.s|)]])
    ensures r.Failure? ==> r.error.kind in {KeyError, IndexError, TypeError}
    ensures r.Failure? && r.error.kind == KeyError ==> v.JObj?
    ensures r.Failure? && r.error.kind == IndexError ==> (v.JArr? || v.JStr?) && key.KInt?
    ensures v.JObj? && !(key.KStr? && key.k in v.fields) ==> r.Failure? && r.error.kind == KeyError
    ensures v.JArr? && key.KInt? && !InBounds(key.i, |v.items|) ==> r.Failure? && r.error.kind == IndexError
    ensures v.JStr? && key.KInt? && !InBounds(key.i, |v.s|) ==> r.Failure? && r.error.kind == IndexError
    ensures (v.JArr? || v.JStr?) && key.KStr? ==> r.Failure? && r.error.kind == TypeError
    ensures !(v.JObj? || v.JArr? || v.JStr?) ==> r.Failure? && r.error.kind == TypeError
  {
    match v
    case JObj(m) =>
      (match key
       case KStr(k) => if k in m then Success(m[k]) else Failure(PyError(KeyError, "'" + k + "'"))
       case KInt(i) => Failure(PyError(KeyError, IntToString(i))))
    case JArr(xs) =>
      (match key
       case KInt(i) =>
         if InBounds(i, |xs|) then Success(xs[Normalize(i, |xs|)])
         else Failure(PyError(IndexError, "list index out of range"))
       case KStr(_) => Failure(PyError(TypeError, "list indices must be integers or slices, not str")))
    case JStr(s) =>
      (match key
       case KInt(i) =>
         if InBounds(i, |s|) then Success(JStr([s[Normalize(i, |s|)]]))
         else Failure(PyError(IndexError, "string index out of range"))
       case KStr(_) => Failure(PyError(TypeError, "string indices must be integers")))
    case _ => Failure(PyError(TypeError, "'" + TypeName(v) + "' object is not subscriptable"))
  }

  /** `v[key]` when it succeeds: the value at the key of a dict, if any. */
  predicate HasKey(v: Json, k: string) {
    v.JObj? && k in v.fields
  }

  /** `needle in v` for a string `needle`: dict keys, list elements, substrings; other values raise. */
  function Contains(v: Json, needle: string): (r: Result<bool, PyError>)
    ensures v.JObj? ==> r == Success(needle in v.fields)
    ensures v.JArr? ==> r == Success(JStr(needle) in v.items)
    ensures v.JStr? ==> r == Success(IsSubstring(needle, v.s))
    ensures r.Failure? <==> !(v.JObj? || v.JArr? || v.JStr?)
    ensures r.Failure? ==> r.error.kind == TypeError
  {
    match v
    case JObj(m) => Success(needle in m)
    case JArr(xs) => Success(JStr(needle) in xs)
    case JStr(s) => Success(IsSubstring(needle, s))
    case _ => Failure(PyError(TypeError, "argument of type '" + TypeName(v) + "' is not iterable"))
  }
}

=== FILE: page_scraper.dfy ===
/**
 * The per-element field extraction of `scrape_products` in jumbo_scraper/scraper.py.
 * Rendering the page and selecting elements belong to the browser and the HTML
 * parser; the model starts from the selected product elements, each reduced to
 * the optional text of its name, price and discounted-price sub-elements.
 */
module PageScraper {
  import opened Wrappers
  import opened PyText
  import opened Json
  import ProductModel

  /** One matched product element: the `.text` of each sub-element `select_one` found, if any. */
  datatype Element = Element(nameText: Option<string>, priceText: Option<string>, promoText: Option<string>)

  /** One entry of the `products` list (the unvalidated `ProductInfo` shape). */
  datatype ProductInfo = ProductInfo(name: string, price: string, promoPrice: string)

  /** The returned dictionary `{"url": ..., "products": [...]}`. */
  datatype ScrapeOutput = ScrapeOutput(url: string, products: seq<ProductInfo>)

  /** Placeholder for a name or price whose element is missing. */
  const NotAvailable: string := "N/A"

  /** `elem.text.strip() if elem else fallback`. */
  function TextOr(t: Option<string>, fallback: string): (r: string)
    ensures t.Some? ==> IsStripOf(t.value, r)
    ensures t.None? ==> r == fallback
    ensures t.Some? || Trimmed(fallback) ==> Trimmed(r)
  {
    match t
    case Some(s) => Strip(s)
    case None => fallback
  }

  /** The record built from one element. */
  function ExtractProduct(e: Element): ProductInfo {
    var name := TextOr(e.nameText, NotAvailable);
    var price := TextOr(e.priceText, NotAvailable);
    var promoPrice := TextOr(e.promoText, price);
    ProductInfo(name, price, promoPrice)
  }

  /**
   * Each field of the record: the stripped text of its sub-element, or the
   * placeholder (the price, for the discounted price) when it is missing.
   */
  lemma ExtractProductFields(e: Element)
    ensures e.nameText.None? ==> ExtractProduct(e).name == NotAvailable
    ensures e.nameText.Some? ==> IsStripOf(e.nameText.value, ExtractProduct(e).name)
    ensures e.priceText.None? ==> ExtractProduct(e).price == NotAvailable
    ensures e.priceText.Some? ==> IsStripOf(e.priceText.value, ExtractProduct(e).price)
    ensures e.promoText.None? ==> ExtractProduct(e).promoPrice == ExtractProduct(e).price
    ensures e.promoText.Some? ==> IsStripOf(e.promoText.value, ExtractProduct(e).promoPrice)
    ensures Trimmed(ExtractProduct(e).name) && Trimmed(ExtractProduct(e).price) && Trimmed(ExtractProduct(e).promoPrice)
  {
    assert Trimmed(NotAvailable) by {
      assert NotAvailable[0] == 'N' && NotAvailable[|NotAvailable| - 1] == 'A';
    }
  }

  /** The loop over the matched elements and the returned result. */
  method ScrapeProducts(url: string, elements: seq<Element>) returns (out: ScrapeOutput)
    ensures out.url == url
    ensures |out.products| == |elements|
    ensures forall i :: 0 <= i < |elements| ==> out.products[i] == ExtractProduct(elements[i])
  {
    var products := MapElements(ExtractProduct, elements);
    out := ScrapeOutput(url, products);
  }

  /** `for elem in elements: products.append(extract(elem))`. */
  method MapElements(extract: Element -> ProductInfo, elements: seq<Element>) returns (products: seq<ProductInfo>)
    ensures |products| == |elements|
    ensures forall i :: 0 <= i < |elements| ==> products[i] == extract(elements[i])
  {
    products := [];
    var i := 0;
    while i < |elements|
      invariant i <= |elements|
      invariant |products| == i
      invariant forall j :: 0 <= j < i ==> products[j] == extract(elements[j])
    {
      products := products + [extract(elements[i])];
      i := i + 1;
    }
  }

  /** A sub-element that is present but holds only whitespace yields `""`, not the placeholder. */
  lemma WhitespaceTextGivesEmpty(e: Element)
    ensures e.nameText.Some? && AllSpace(e.nameText.value) ==> ExtractProduct(e).name == ""
    ensures e.priceText.Some? && AllSpace(e.priceText.value) ==> ExtractProduct(e).price == ""
    ensures e.promoText.Some? && AllSpace(e.promoText.value) ==> ExtractProduct(e).promoPrice == ""
  {
    ExtractProductFields(e);
    if e.nameText.Some? { StripEmptyIffAllSpace(e.nameText.value); }
    if e.priceText.Some? { StripEmptyIffAllSpace(e.priceText.value); }
    if e.promoText.Some? { StripEmptyIffAllSpace(e.promoText.value); }
  }

  /**
   * The records are `ProductInfo`, which has no validator: a whitespace-only name
   * produces a record that the `Product` model would refuse.
   */
  lemma BlankNameEscapesValidation(e: Element)
    requires e.nameText.Some? && AllSpace(e.nameText.value)
    ensures ProductModel.Name in ProductModel.ValidateProduct(ExtractProduct(e).name, ExtractProduct(e).price, ExtractProduct(e).promoPrice).error
  {
    WhitespaceTextGivesEmpty(e);
  }

  function ProductJson(p: ProductInfo): Json {
    JObj(map["name" := JStr(p.name), "price" := JStr(p.price), "promo_price" := JStr(p.promoPrice)])
  }

  /** The result as the JSON-like dictionary the API serves and caches. */
  function ToJson(out: ScrapeOutput): Json {
    JObj(map["url" := JStr(out.url),
             "products" := JArr(seq(|out.products|, i requires 0 <= i < |out.products| => ProductJson(out.products[i])))])
  }

  /** The scraper's result has no `error` key, is truthy, and carries the input URL under `url`. */
  lemma ScrapeOutputShape(out: ScrapeOutput)
    ensures Contains(ToJson(out), "error") == Success(false)
    ensures GetItem(ToJson(out), KStr("url")) == Success(JStr(out.url))
    ensures Truthy(ToJson(out))
  {
    assert "error" !in ToJson(out).fields;
  }
}

=== FILE: product.dfy ===
/** The `Product` model's field validator (jumbo_scraper/src/models/product.py). */
module ProductModel {
  import opened Wrappers
  import opened PyText
  import opened Json

  /** A field that holds at least one non-whitespace character. */
  predicate NonBlank(v: string) {
    exists i :: 0 <= i < |v| && !IsSpace(v[i])
  }

  /** `check_not_empty`: reject a string whose stripped form is empty, otherwise return it unchanged. */
  function CheckNotEmpty(v: string): (r: Result<string, PyError>)
    ensures r.Success? <==> NonBlank(v)
    ensures r.Success? ==> r.value == v
    ensures r.Failure? ==> r.error == PyError(ValueError, "Field cannot be empty")
  {
    StripEmptyIffAllSpace(v);
    if Strip(v) == [] then Failure(PyError(ValueError, "Field cannot be empty")) else Success(v)
  }

  datatype Product = Product(name: string, price: string, promoPrice: string)

  /** The three validated fields: `name`, `price`, `promo_price`. */
  datatype Field = Name | Price | PromoPrice

  /** The fields whose validator failed, in declaration order. */
  function FailedFields(name: bool, price: bool, promoPrice: bool): (fs: seq<Field>)
    ensures (Name in fs <==> name) && (Price in fs <==> price) && (PromoPrice in fs <==> promoPrice)
    ensures fs == [] <==> !name && !price && !promoPrice
  {
    (if name then [Name] else []) + (if price then [Price] else []) + (if promoPrice then [PromoPrice] else [])
  }

  /**
   * Building a `Product`: the validator runs on each of the three fields on its
   * own, and a failure reports every field that failed, in declaration order.
   */
  function ValidateProduct(name: string, price: string, promoPrice: string): (r: Result<Product, seq<Field>>)
    ensures r.Success? <==> NonBlank(name) && NonBlank(price) && NonBlank(promoPrice)
    ensures r.Success? ==> r.value == Product(name, price, promoPrice)
    ensures r.Failure? ==>
      && (Name in r.error <==> !NonBlank(name))
      && (Price in r.error <==> !NonBlank(price))
      && (PromoPrice in r.error <==> !NonBlank(promoPrice))
  {
    var failed := FailedFields(CheckNotEmpty(name).Failure?, CheckNotEmpty(price).Failure?, CheckNotEmpty(promoPrice).Failure?);
    if failed == [] then Success(Product(name, price, promoPrice)) else Failure(failed)
  }
}

=== FILE: pytext.dfy ===
/**
 * The handful of Python `str` behaviours the scraper relies on: `str.isspace`,
 * `str.strip()`, `str.lstrip(c)`, `in` on strings, and decimal formatting of
 * an `int` in an f-string, together with the decimal reading that inverts it.
 */
module PyText {
  import opened Wrappers

  /** `c.isspace()`: the characters `str.strip()` removes when called without arguments. */
  predicate IsSpace(c: char) {
    || c == ' '
    || ('\t' <= c <= '\r')
    || ('\U{1C}' <= c <= '\U{1F}')
    || c == '\U{85}' || c == '\U{A0}' || c == '\U{1680}'
    || ('\U{2000}' <= c <= '\U{200A}')
    || c == '\U{2028}' || c == '\U{2029}' || c == '\U{202F}' || c == '\U{205F}' || c == '\U{3000}'
  }

  predicate AllSpace(s: string) {
    forall i :: 0 <= i < |s| ==> IsSpace(s[i])
  }

  lemma AllSpaceConcat(a: string, b: string)
    requires AllSpace(a) && AllSpace(b)
    ensures AllSpace(a + b)
  {
    forall i | 0 <= i < |a + b| ensures IsSpace((a + b)[i]) {
      if i < |a| { assert (a + b)[i] == a[i]; } else { assert (a + b)[i] == b[i - |a|]; }
    }
  }

  /** No whitespace at either end: what every result of `strip()` looks like. */
  predicate Trimmed(s: string) {
    s == [] || (!IsSpace(s[0]) && !IsSpace(s[|s| - 1]))
  }

  /** `r` is `s` with a whitespace prefix and a whitespace suffix cut off, and is itself trimmed. */
  ghost predicate IsStripOf(s: string, r: string) {
    exists i, j :: 0 <= i <= j <= |s| && r == s[i..j] && AllSpace(s[..i]) && AllSpace(s[j..]) && Trimmed(r)
  }

  function StripLeft(s: string): (r: string)
    ensures |r| <= |s| && r == s[|s| - |r|..]
    ensures AllSpace(s[..|s| - |r|])
    ensures r == [] || !IsSpace(r[0])
  {
    if |s| > 0 && IsSpace(s[0]) then
      var r := StripLeft(s[1..]);
      StripLeftStep(s, r);
      r
    else s
  }

  /** Dropping one more leading space keeps `r` a suffix with only spaces before it. */
  lemma StripLeftStep(s: string, r: string)
    requires |s| > 0 && IsSpace(s[0])
    requires |r| <= |s| - 1 && r == s[1..][|s| - 1 - |r|..]
    requires AllSpace(s[1..][..|s| - 1 - |r|])
    ensures r == s[|s| - |r|..]
    ensures AllSpace(s[..|s| - |r|])
  {
    var n := |s| - |r|;
    assert s[1..][n - 1..] == s[n..];
    forall k | 0 <= k < n ensures IsSpace(s[..n][k]) {
      if k > 0 { assert s[..n][k] == s[1..][..n - 1][k - 1]; }
    }
  }

  function StripRight(s: string): (r: string)
    ensures |r| <= |s| && r == s[..|r|]
    ensures AllSpace(s[|r|..])
    ensures r == [] || !IsSpace(r[|r| - 1])
  {
    if |s| > 0 && IsSpace(s[|s| - 1]) then
      var r := StripRight(s[..|s| - 1]);
      assert s[|r|..] == s[..|s| - 1][|r|..] + [s[|s| - 1]];
      AllSpaceConcat(s[..|s| - 1][|r|..], [s[|s| - 1]]);
      r
    else s
  }

  /** `s.strip()`. */
  function Strip(s: string): (r: string)
    ensures IsStripOf(s, r)
    ensures Trimmed(r)
  {
    var l := StripLeft(s);
    var r := StripRight(l);
    StripSteps(s, l, r);
    r
  }

  /** Stripping the left end, then the right end, cuts `s` down to a trimmed middle. */
  lemma StripSteps(s: string, l: string, r: string)
    requires |l| <= |s| && l == s[|s| - |l|..] && AllSpace(s[..|s| - |l|]) && (l == [] || !IsSpace(l[0]))
    requires |r| <= |l| && r == l[..|r|] && AllSpace(l[|r|..]) && (r == [] || !IsSpace(r[|r| - 1]))
    ensures IsStripOf(s, r) && Trimmed(r)
  {
    var i := |s| - |l|;
    var j := i + |r|;
    assert r == s[i..j] && s[j..] == l[|r|..] by {
      SliceOfSuffix(s, l, |r|);
    }
    assert Trimmed(r) by {
      if r != [] { assert r[0] == l[0]; }
    }
    assert 0 <= i <= j <= |s| && AllSpace(s[..i]) && AllSpace(s[j..]);
  }

  /** Slicing a suffix of `s` is slicing `s` itself, shifted. */
  lemma SliceOfSuffix(s: string, l: string, k: nat)
    requires |l| <= |s| && l == s[|s| - |l|..] && k <= |l|
    ensures l[..k] == s[|s| - |l|..|s| - |l| + k]
    ensures l[k..] == s[|s| - |l| + k..]
  {
  }

  lemma PrefixAllSpace(s: string, i: nat)
    requires i <= |s| && AllSpace(s[..i])
    ensures forall k :: 0 <= k < i ==> IsSpace(s[k])
  {
    forall k | 0 <= k < i ensures IsSpace(s[k]) { assert s[..i][k] == s[k]; }
  }

  lemma SuffixAllSpace(s: string, j: nat)
    requires j <= |s| && AllSpace(s[j..])
    ensures forall k :: j <= k < |s| ==> IsSpace(s[k])
  {
    forall k | j <= k < |s| ensures IsSpace(s[k]) { assert s[j..][k - j] == s[k]; }
  }

  /** Where a strip starts and ends: at the first and after the last non-whitespace character. */
  lemma StripBounds(s: string, r: string, i: nat, j: nat)
    requires i <= j <= |s| && r == s[i..j] && AllSpace(s[..i]) && AllSpace(s[j..]) && Trimmed(r)
    ensures r == [] <==> AllSpace(s)
    ensures r != [] ==> !IsSpace(s[i]) && !IsSpace(s[j - 1])
    ensures forall k :: 0 <= k < i ==> IsSpace(s[k])
    ensures forall k :: j <= k < |s| ==> IsSpace(s[k])
  {
    PrefixAllSpace(s, i);
    SuffixAllSpace(s, j);
    if r != [] {
      assert s[i] == r[0] && s[j - 1] == r[|r| - 1];
    }
  }

  /** There is only one way to strip a string: `Strip` is fully determined by `IsStripOf`. */
  lemma StripUnique(s: string, r1: string, r2: string)
    requires IsStripOf(s, r1) && IsStripOf(s, r2)
    ensures r1 == r2
  {
    var i1, j1 :| 0 <= i1 <= j1 <= |s| && r1 == s[i1..j1] && AllSpace(s[..i1]) && AllSpace(s[j1..]) && Trimmed(r1);
    var i2, j2 :| 0 <= i2 <= j2 <= |s| && r2 == s[i2..j2] && AllSpace(s[..i2]) && AllSpace(s[j2..]) && Trimmed(r2);
    StripBounds(s, r1, i1, j1);
    StripBounds(s, r2, i2, j2);
    if r1 != [] {
      assert i1 == i2 && j1 == j2;
    }
  }

  /** `s.strip()` is empty exactly when `s` holds nothing but whitespace. */
  lemma StripEmptyIffAllSpace(s: string)
    ensures Strip(s) == [] <==> AllSpace(s)
  {
    var r := Strip(s);
    var i, j :| 0 <= i <= j <= |s| && r == s[i..j] && AllSpace(s[..i]) && AllSpace(s[j..]) && Trimmed(r);
    StripBounds(s, r, i, j);
  }

  /** `s.lstrip(c)`: drop every leading occurrence of `c`. */
  function LStripChar(s: string, c: char): (r: string)
    ensures |r| <= |s| && r == s[|s| - |r|..]
    ensures forall k :: 0 <= k < |s| - |r| ==> s[k] == c
    ensures r == [] || r[0] != c
  {
    if |s| > 0 && s[0] == c then LStripChar(s[1..], c) else s
  }

  /** `needle in haystack` for two strings. */
  predicate IsSubstring(needle: string, haystack: string) {
    exists i :: 0 <= i <= |haystack| - |needle| && OccursAt(needle, haystack, i)
  }

  predicate OccursAt(needle: string, haystack: string, i: int) {
    0 <= i <= |haystack| - |needle| && haystack[i..i + |needle|] == needle
  }

  function DigitChar(d: nat): (c: char)
    requires d < 10
    ensures '0' <= c <= '9'
  {
    "0123456789"[d]
  }

  function DigitValue(c: char): nat
    requires '0' <= c <= '9'
  {
    (c as int - '0' as int) as nat
  }

  predicate IsDigits(s: string) {
    forall i :: 0 <= i < |s| ==> '0' <= s[i] <= '9'
  }

  /** Decimal digits of `n`, most significant first, without leading zeros. */
  function NatToString(n: nat): (r: string)
    ensures |r| > 0 && IsDigits(r)
    decreases n
  {
    if n < 10 then [DigitChar(n)] else NatToString(n / 10) + [DigitChar(n % 10)]
  }

  /** `f"{n}"` for a Python `int`: an optional minus sign, then the decimal digits. */
  function IntToString(n: int): (r: string)
    ensures |r| > 0
    ensures forall i :: 0 <= i < |r| ==> r[i] == '-' || '0' <= r[i] <= '9'
  {
    if n < 0 then "-" + NatToString(-n) else NatToString(n)
  }

  function DigitsValue(s: string): nat
    requires IsDigits(s)
  {
    if s == [] then 0 else DigitsValue(s[..|s| - 1]) * 10 + DigitValue(s[|s| - 1])
  }

  /** Reading a decimal integer back: an optional `-`, then at least one digit. */
  function ParseInt(s: string): Option<int> {
    if |s| > 0 && s[0] == '-' then
      (if |s| > 1 && IsDigits(s[1..]) then Some(-(DigitsValue(s[1..]) as int)) else None)
    else if |s| > 0 && IsDigits(s) then Some(DigitsValue(s) as int)
    else None
  }

  lemma {:induction false} DigitsValueOfNatToString(n: nat)
    ensures DigitsValue(NatToString(n)) == n
    decreases n
  {
    var s := NatToString(n);
    if n < 10 {
      assert s[..|s| - 1] == [];
      assert "0123456789"[n] as int - '0' as int == n;
    } else {
      DigitsValueOfNatToString(n / 10);
      assert s[..|s| - 1] == NatToString(n / 10);
      assert "0123456789"[n % 10] as int - '0' as int == n % 10;
    }
  }

  /** Formatting an `int` loses nothing: reading the text back yields the same number. */
  lemma ParseIntOfIntToString(n: int)
    ensures ParseInt(IntToString(n)) == Some(n)
  {
    var m: nat := if n < 0 then -n else n;
    var digits := NatToString(m);
    DigitsValueOfNatToString(m);
    assert digits[0] != '-';
    if n < 0 {
      assert IntToString(n) == "-" + digits;
      assert ("-" + digits)[1..] == digits;
    } else {
      assert IntToString(n) == digits;
    }
  }
}

=== FILE: redis_cache.dfy ===
/**
 * The result cache of jumbo_scraper/src/utils/redis_helper.py: a Redis key per
 * URL holding the JSON text of a result, written with `SETEX` and read with
 * `GET`. Redis forgets a key once its time to live has passed; the model keeps
 * the expiry time and treats an expired entry as absent when it is read.
 */
module RedisCache {
  import opened Wrappers
  import opened Json

  /** A stored string and the second at which Redis drops it. */
  datatype Entry = Entry(value: string, expiresAt: int)

  type Store = map<string, Entry>

  /** `json.dumps` and `json.loads`, whose workings belong to the library. */
  datatype Codec = Codec(dumps: Json -> string, loads: string -> Option<Json>)

  /** The library's promise: encoding never yields `""`, and decoding gives the value back. */
  ghost predicate Lossless(codec: Codec) {
    forall v :: codec.dumps(v) != "" && codec.loads(codec.dumps(v)) == Some(v)
  }

  /** `GET key` at second `now`: nothing once the entry has expired. */
  function Read(store: Store, now: int, key: string): (r: Option<string>)
    ensures r.Some? <==> key in store && now < store[key].expiresAt
    ensures r.Some? ==> r.value == store[key].value
  {
    if key in store && now < store[key].expiresAt then Some(store[key].value) else None
  }

  /**
   * `get_cached_result`: `None` for a missing, expired or empty entry; otherwise
   * the decoded JSON, and a `JSONDecodeError` when the text does not decode.
   */
  function GetCachedResult(store: Store, now: int, key: string, codec: Codec): (r: Result<Option<Json>, PyError>)
    ensures key !in store ==> r == Success(None)
    ensures key in store && now >= store[key].expiresAt ==> r == Success(None)
    ensures key in store && store[key].value == "" ==> r == Success(None)
    ensures r.Success? && r.value.Some? ==>
      && key in store && now < store[key].expiresAt && store[key].value != ""
      && codec.loads(store[key].value) == Some(r.value.value)
    ensures r.Failure? ==>
      && key in store && now < store[key].expiresAt && store[key].value != ""
      && codec.loads(store[key].value) == None && r.error.kind == JSONDecodeError
    ensures key in store && now < store[key].expiresAt && store[key].value != "" ==>
      (codec.loads(store[key].value).Some? ==> r == Success(codec.loads(store[key].value))) &&
      (codec.loads(store[key].value).None? ==> r.Failure?)
  {
    match Read(store, now, key)
    case None => Success(None)
    case Some(text) =>
      if text == "" then Success(None)
      else
        match codec.loads(text)
        case None => Failure(PyError(JSONDecodeError, "Expecting value"))
        case Some(v) => Success(Some(v))
  }

  /**
   * `set_cached_result`: `SETEX key ttl json.dumps(value)` under the key exactly as
   * given. Redis refuses a time to live that is not positive.
   */
  function SetCachedResult(store: Store, now: int, key: string, value: Json, ttl: int, codec: Codec): (r: Result<Store, PyError>)
    ensures r.Success? <==> ttl > 0
    ensures r.Failure? ==> r.error.kind == ResponseError
    ensures r.Success? ==> key in r.value && r.value[key] == Entry(codec.dumps(value), now + ttl)
    ensures r.Success? ==> forall k :: k != key ==> (k in r.value <==> k in store)
    ensures r.Success? ==> forall k :: k != key && k in store ==> r.value[k] == store[k]
  {
    if ttl <= 0 then Failure(PyError(ResponseError, "invalid expire time in 'setex' command"))
    else Success(store[key := Entry(codec.dumps(value), now + ttl)])
  }

  /** Reading a key back after writing it: the value itself before the time to live runs out, nothing after. */
  lemma SetThenGet(store: Store, now: int, key: string, value: Json, ttl: int, codec: Codec, later: int)
    requires Lossless(codec) && ttl > 0
    ensures GetCachedResult(SetCachedResult(store, now, key, value, ttl, codec).value, later, key, codec) ==
      (if later < now + ttl then Success(Some(value)) else Success(None))
  {
    assert codec.dumps(value) != "" && codec.loads(codec.dumps(value)) == Some(value);
  }

  /** Writing one key leaves every other key reading as before. */
  lemma SetLeavesOtherKeys(store: Store, now: int, key: string, value: Json, ttl: int, codec: Codec, other: string, later: int)
    requires ttl > 0 && other != key
    ensures GetCachedResult(SetCachedResult(store, now, key, value, ttl, codec).value, later, other, codec) ==
      GetCachedResult(store, later, other, codec)
  {
  }
}

=== FILE: redis_url.dfy ===
/**
 * The `redis://` connection string both settings classes build, and a reader
 * for that format: the scheme, an optional `user:password@` cut at the first
 * `@` and the first `:`, `host:port` cut at the last `:`, then `/` and the
 * database. The reader is the partner of the builders: what a settings object
 * means is what the reader gets back from its URL. It reads the builders' own
 * format only; it is not the general URL parser a Redis client applies.
 */
module RedisUrl {
  import opened Wrappers
  import opened PyText

  /** `if username and password`: credentials are written only when both are non-empty. */
  function Credentials(username: string, password: string): (c: Option<(string, string)>)
    ensures c.Some? <==> username != "" && password != ""
    ensures c.Some? ==> c.value == (username, password)
  {
    if username != "" && password != "" then Some((username, password)) else None
  }

  /** `f"redis://{user}:{password}@{host}:{port}/{db}"`, or the same without `user:password@`. */
  function Format(credentials: Option<(string, string)>, host: string, port: int, db: string): string {
    "redis://" + Authority(credentials, host, port) + "/" + db
  }

  /** Every URL the builders write starts with the scheme and ends with `/` and the database text. */
  lemma FormatAffixes(credentials: Option<(string, string)>, host: string, port: int, db: string)
    ensures var url := Format(credentials, host, port, db);
      && |url| == 9 + |Authority(credentials, host, port)| + |db|
      && |Authority(credentials, host, port)| > 0
      && url[..8] == "redis://"
      && url[|url| - |db| - 1..] == "/" + db
  {
    var a := Authority(credentials, host, port);
    var url := "redis://" + a + "/" + db;
    assert url[..8] == "redis://";
    assert url[|url| - |db| - 1..] == "/" + db;
  }

  function Authority(credentials: Option<(string, string)>, host: string, port: int): string {
    match credentials
    case Some((user, password)) => user + ":" + password + "@" + host + ":" + IntToString(port)
    case None => host + ":" + IntToString(port)
  }

  /** What a Redis URL designates. */
  datatype UrlParts = UrlParts(credentials: Option<(string, string)>, host: string, port: int, db: int)

  /** Position of the first `c` in `s`. */
  function IndexOf(s: string, c: char): (r: Option<nat>)
    ensures r.Some? ==> r.value < |s| && s[r.value] == c && c !in s[..r.value]
    ensures r.None? <==> c !in s
  {
    if s == [] then None
    else if s[0] == c then Some(0)
    else
      match IndexOf(s[1..], c)
      case None => None
      case Some(k) => assert s[..k + 1] == [s[0]] + s[1..][..k]; Some(k + 1)
  }

  /** Position of the last `c` in `s`. */
  function LastIndexOf(s: string, c: char): (r: Option<nat>)
    ensures r.Some? ==> r.value < |s| && s[r.value] == c && c !in s[r.value + 1..]
    ensures r.None? <==> c !in s
  {
    if s == [] then None
    else if s[|s| - 1] == c then Some(|s| - 1)
    else
      match LastIndexOf(s[..|s| - 1], c)
      case None => assert s == s[..|s| - 1] + [s[|s| - 1]]; None
      case Some(k) => assert s[k + 1..] == s[..|s| - 1][k + 1..] + [s[|s| - 1]]; Some(k)
  }

  /** Reads `host:port`, splitting at the last colon. */
  function ParseHostPort(hp: string): Option<(string, int)> {
    match LastIndexOf(hp, ':')
    case None => None
    case Some(c) =>
      match ParseInt(hp[c + 1..])
      case None => None
      case Some(port) => Some((hp[..c], port))
  }

  /** Reads the part between `redis://` and the first `/`: optional `user:password@`, then `host:port`. */
  function ParseAuthority(authority: string): Option<(Option<(string, string)>, string, int)> {
    match IndexOf(authority, '@')
    case None =>
      (match ParseHostPort(authority)
       case None => None
       case Some((host, port)) => Some((None, host, port)))
    case Some(at) =>
      var userinfo := authority[..at];
      match IndexOf(userinfo, ':')
      case None => None
      case Some(colon) =>
        match ParseHostPort(authority[at + 1..])
        case None => None
        case Some((host, port)) => Some((Some((userinfo[..colon], userinfo[colon + 1..])), host, port))
  }

  /** Reads a Redis URL: scheme, authority, then `/db`. */
  function Parse(url: string): Option<UrlParts> {
    if |url| < 8 || url[..8] != "redis://" then None
    else
      var rest := url[8..];
      match IndexOf(rest, '/')
      case None => None
      case Some(slash) =>
        match ParseInt(rest[slash + 1..])
        case None => None
        case Some(db) =>
          match ParseAuthority(rest[..slash])
          case None => None
          case Some((credentials, host, port)) => Some(UrlParts(credentials, host, port, db))
  }

  /** Values that can be written into the URL without being mistaken for its separators. */
  predicate Separable(credentials: Option<(string, string)>, host: string) {
    && '@' !in host && '/' !in host
    && (credentials.Some? ==>
          && ':' !in credentials.value.0 && '@' !in credentials.value.0 && '/' !in credentials.value.0
          && '@' !in credentials.value.1 && '/' !in credentials.value.1)
  }

  lemma AbsentFromSlice(s: string, i: nat, j: nat, c: char)
    requires i <= j <= |s| && c !in s[i..j]
    ensures forall k :: i <= k < j ==> s[k] != c
  {
    forall k | i <= k < j ensures s[k] != c { assert s[i..j][k - i] == s[k]; }
  }

  /** A first occurrence is unique. */
  lemma IndexOfAt(s: string, c: char, i: nat)
    requires i < |s| && s[i] == c && c !in s[..i]
    ensures IndexOf(s, c) == Some(i)
  {
    assert s[0..i] == s[..i];
    AbsentFromSlice(s, 0, i, c);
    var r := IndexOf(s, c).value;
    assert s[0..r] == s[..r];
    AbsentFromSlice(s, 0, r, c);
  }

  /** A last occurrence is unique. */
  lemma LastIndexOfAt(s: string, c: char, i: nat)
    requires i < |s| && s[i] == c && c !in s[i + 1..]
    ensures LastIndexOf(s, c) == Some(i)
  {
    assert s[i + 1..|s|] == s[i + 1..];
    AbsentFromSlice(s, i + 1, |s|, c);
    var r := LastIndexOf(s, c).value;
    assert s[r + 1..|s|] == s[r + 1..];
    AbsentFromSlice(s, r + 1, |s|, c);
  }

  lemma IndexOfAfter(a: string, c: char, b: string)
    requires c !in a
    ensures IndexOf(a + [c] + b, c) == Some(|a|)
  {
    var s := a + [c] + b;
    assert s[..|a|] == a;
    IndexOfAt(s, c, |a|);
  }

  lemma LastIndexOfBefore(a: string, c: char, b: string)
    requires c !in b
    ensures LastIndexOf(a + [c] + b, c) == Some(|a|)
  {
    var s := a + [c] + b;
    assert s[|a| + 1..] == b;
    LastIndexOfAt(s, c, |a|);
  }

  /** Cutting `prefix + [c] + suffix` at its first `c`. */
  lemma SplitAtFirst(prefix: string, c: char, suffix: string)
    requires c !in prefix
    ensures IndexOf(prefix + [c] + suffix, c) == Some(|prefix|)
    ensures (prefix + [c] + suffix)[..|prefix|] == prefix
    ensures (prefix + [c] + suffix)[|prefix| + 1..] == suffix
  {
    IndexOfAfter(prefix, c, suffix);
  }

  lemma PortTextHasNoSeparator(port: int)
    ensures ':' !in IntToString(port) && '/' !in IntToString(port) && '@' !in IntToString(port)
  {
    var t := IntToString(port);
    forall k | 0 <= k < |t| ensures t[k] != ':' && t[k] != '/' && t[k] != '@' { }
  }

  lemma ParseHostPortOf(host: string, port: int)
    ensures ParseHostPort(host + ":" + IntToString(port)) == Some((host, port))
  {
    var t := IntToString(port);
    PortTextHasNoSeparator(port);
    LastIndexOfBefore(host, ':', t);
    var hp := host + ":" + t;
    assert hp[|host| + 1..] == t;
    assert hp[..|host|] == host;
    ParseIntOfIntToString(port);
  }

  lemma ParseAuthorityOf(credentials: Option<(string, string)>, host: string, port: int)
    requires Separable(credentials, host)
    ensures ParseAuthority(Authority(credentials, host, port)) == Some((credentials, host, port))
  {
    match credentials
    case None => ParseBareAuthority(host, port);
    case Some((user, password)) => ParseUserAuthority(user, password, host, port);
  }

  lemma ParseBareAuthority(host: string, port: int)
    requires '@' !in host
    ensures ParseAuthority(host + ":" + IntToString(port)) == Some((None, host, port))
  {
    PortTextHasNoSeparator(port);
    ParseHostPortOf(host, port);
    assert '@' !in host + ":" + IntToString(port);
  }

  lemma ParseUserAuthority(user: string, password: string, host: string, port: int)
    requires ':' !in user && '@' !in user && '@' !in password
    ensures ParseAuthority(user + ":" + password + "@" + host + ":" + IntToString(port)) ==
      Some((Some((user, password)), host, port))
  {
    var hostPort := host + ":" + IntToString(port);
    var userinfo := user + ":" + password;
    var authority := user + ":" + password + "@" + host + ":" + IntToString(port);
    assert authority == userinfo + "@" + hostPort;
    assert '@' !in userinfo;
    SplitAtFirst(userinfo, '@', hostPort);
    SplitAtFirst(user, ':', password);
    ParseHostPortOf(host, port);
  }

  lemma AuthorityHasNoSlash(credentials: Option<(string, string)>, host: string, port: int)
    requires Separable(credentials, host)
    ensures '/' !in Authority(credentials, host, port)
  {
    PortTextHasNoSeparator(port);
  }

  /** The reader recovers exactly what the builder wrote. */
  lemma ParseFormat(credentials: Option<(string, string)>, host: string, port: int, db: int)
    requires Separable(credentials, host)
    ensures Parse(Format(credentials, host, port, IntToString(db))) == Some(UrlParts(credentials, host, port, db))
  {
    ParseIntOfIntToString(db);
    ParseAuthorityOf(credentials, host, port);
    AuthorityHasNoSlash(credentials, host, port);
    ParseAssembled(Authority(credentials, host, port), IntToString(db));
  }

  /** `Parse` takes a URL apart at the scheme and the first slash. */
  lemma ParseAssembled(authority: string, d: string)
    requires '/' !in authority
    ensures Parse("redis://" + authority + "/" + d) ==
      match (ParseInt(d), ParseAuthority(authority))
      case (Some(db), Some((credentials, host, port))) => Some(UrlParts(credentials, host, port, db))
      case _ => None
  {
    SplitAtFirst(authority, '/', d);
    var rest := authority + "/" + d;
    assert "redis://" + authority + "/" + d == "redis://" + rest;
    SchemePrefix(rest);
  }

  lemma SchemePrefix(rest: string)
    ensures ("redis://" + rest)[..8] == "redis://" && ("redis://" + rest)[8..] == rest
  {
  }
}

=== FILE: wrappers.dfy ===
/** Option and Result values, both usable with `:-`. */
module Wrappers {

  datatype Option<+T> = None | Some(value: T) {
    predicate IsFailure() { None? }

    function PropagateFailure<U>(): Option<U>
      requires None?
    {
      None
    }

    function Extract(): T
      requires Some?
    {
      value
    }
  }

  datatype Result<+R, +E> = Success(value: R) | Failure(error: E) {
    predicate IsFailure() { Failure? }

    function PropagateFailure<U>(): Result<U, E>
      requires Failure?
    {
      Failure(error)
    }

    function Extract(): R
      requires Success?
    {
      value
    }
  }
}
